=== FILE: README.md ===
# Flood dashboard computations in Dafny

A Dafny model of the small pure computations inside the flood pages of a
Next.js weather and flood dashboard for Da Nang. The surrounding pages are
React and Leaflet glue fed by fixed arrays. Underneath that glue are:

- `generateFloodHeatData` in the map component: fifteen base risk points,
  three river corridors built by `createRiverPattern`, and a random cluster
  of points around every base point. Also `getFloodColor`, the colour of a
  rainfall-zone circle.
- The heat layer component:
  - the filter and conversion of points into `[lat, lng, weight]` tuples;
  - the pulsing-opacity oscillator;
  - the effect that adds one heat layer to the map per run and removes it
    again in the run's cleanup.
- The water-level indicator: the fill percentage, the marker colour, the
  marker radius and the popup bar class.
- The water-level chart:
  - the y-axis headroom;
  - the warning and danger thresholds, read from the first reading;
  - the strict "exceeded" tests and the status banner;
  - the rainfall axis.

## Modules

- `Js` (js.dfy): JavaScript numbers.
  - Finite values are exact reals, plus `NaN` and the two infinities.
  - Truthiness, and division by zero.
  - `Math.min` with a finite first argument.
- `HeatPoints` (heat_points.dfy): the heat point record and the names the
  generator gives to points.
- `RiverPattern` (river_pattern.dfy): `createRiverPattern`.
  - As a pure function `Pattern`.
  - As the source's nested push loop `CreateRiverPattern`, proved to append
    exactly `Pattern`.
- `Clusters` (clusters.dfy): the cluster pass.
  - `Math.random()` is a stream of draws in `[0, 1)`, consumed in call order.
  - The `Math.sqrt` distance is a parameter that is only known to be
    non-negative.
- `FloodHeatData` (flood_heat_data.dfy): the whole generator and the
  dashboard's fixed inputs.
- `FloodColor` (flood_color.dfy): `getFloodColor`.
- `HeatmapPoints` (heatmap_points.dfy): the point filter and the conversion
  to weighted tuples.
- `OpacityPulse` (opacity_pulse.dfy): the oscillator, in integer hundredths
  (40 is 0.4).
- `HeatLayerLifecycle` (heat_layer_lifecycle.dfy): prop defaults, layer
  options, and the add/cleanup protocol.
  - The map is an abstract set of attached layer ids.
  - Layers of other components are `Foreign` ids.
- `WaterLevelIndicator` (water_level_indicator.dfy): the station markers.
- `WaterLevelChart` (water_level_chart.dfy): the chart's banner and axes.

Four facts about the code that are easy to misread:

- When animation is switched off, the effect at
  `src/components/HeatmapLayer.tsx:51` just returns. Nothing resets the
  opacity, which keeps its last value (`OpacityPulse.Advance`,
  `OpacityPulse.PlayInRange`).
- The point filter at `src/components/HeatmapLayer.tsx:69` checks only that
  the `lat` and `lng` keys are present, although the comment on line 68 says
  the points are made valid. NaN or infinite coordinates reach the heat
  plugin (`HeatmapPoints.NaNLatitudeKept`).
- The cluster count is 20 to 29, although the comment at
  `src/components/MapComponent.tsx:107` says "20-30"
  (`Clusters.ClusterCount`).
- React compares the effect's dependencies at
  `src/components/HeatmapLayer.tsx:101` with `Object.is`. A new `points`
  array with equal contents rebuilds the layer; the same array mutated in
  place does not (`HeatLayerLifecycle.FreshPointsArrayRebuilds`,
  `HeatLayerLifecycle.InPlaceMutationKeepsLayer`).

## Model

| member | source | states |
|---|---|---|
| FloodHeatData.GenerateFloodHeatData | src/components/MapComponent.tsx:30-131 | the dashboard's point list begins with its fifteen base points, unchanged and in order |
| FloodHeatData.Synthesize | src/components/MapComponent.tsx:54 | the generated list begins with the base points, unchanged and in order |
| FloodHeatData.DeterministicPrefix | src/components/MapComponent.tsx:54-103 | the base points and the river corridors that follow them do not depend on the random draws or the distance; the corridor block is exactly the concatenated river patterns |
| FloodHeatData.SynthesizeClusters | src/components/MapComponent.tsx:105-128 | after the corridors come between 20 and 29 points per base point, each within the jitter box of a base point, with intensity between 0.35 and the larger of 0.35 and that base point's intensity |
| FloodHeatData.Corridors | src/components/MapComponent.tsx:96-103 | several corridors append 13 points per segment in total |
| FloodHeatData.CorridorsStartAfterBase | src/components/MapComponent.tsx:54-63 | the first point after the base points is the first river's start |
| FloodHeatData.DashboardSegments | src/components/MapComponent.tsx:97-103 | the three dashboard rivers step through 15 + 10 + 10 = 35 segments |
| FloodHeatData.DashboardHeatDataSize | src/components/MapComponent.tsx:30-131 | the dashboard's data set has between 770 and 905 points, whatever the draws |
| FloodHeatData.DashboardHeatDataStart | src/components/MapComponent.tsx:31-54 | the dashboard's data set starts with its 15 base points, followed by the Han river's start (16.065, 108.223) |
| RiverPattern.Pattern | src/components/MapComponent.tsx:56-57 | a non-positive segment count adds nothing; otherwise 13 points per segment |
| RiverPattern.DefaultPattern | src/components/MapComponent.tsx:56 | with the optional parameters omitted (10 segments, intensity 0.9, width 0.005) a corridor has 130 points and starts at its start point with intensity 0.9 |
| RiverPattern.CreateRiverPattern | src/components/MapComponent.tsx:56-94 | the push loop appends exactly the pattern, 13·segments points, to the shared list |
| RiverPattern.Ratio | src/components/MapComponent.tsx:58 | the interpolation ratio of step i lies in [0, 1), and times the segment count gives back i |
| RiverPattern.PatternAt | src/components/MapComponent.tsx:57-92 | point j of step k sits at position 13·k + j of the pattern |
| RiverPattern.SegmentShape | src/components/MapComponent.tsx:62-92 | each step is its centre followed by twelve width points, four per width step w = 1, 2, 3. Each moves exactly one coordinate of the centre by ±(w/3)·width, carries intensity·(1 − w/4), and leaves the other coordinate unchanged |
| RiverPattern.SegmentSides | src/components/MapComponent.tsx:68-91 | width step w pushes exactly four points, in the order north (lat + f), south (lat − f), east (lng + f), west (lng − f) with f = (w/3)·width, each with intensity·(1 − w/4) and tagged with its side, step and width step |
| RiverPattern.FirstPointIsStart | src/components/MapComponent.tsx:57-63 | the first centre point is exactly the river's start, with the river's intensity |
| RiverPattern.CentresEvenlySpaced | src/components/MapComponent.tsx:58-60 | consecutive centre points are (end − start)/segments apart in each coordinate |
| RiverPattern.EndNeverEmitted | src/components/MapComponent.tsx:57-60 | the river's end is never a centre point (the ratio stays below 1), unless start and end coincide |
| RiverPattern.TaperDecreasing | src/components/MapComponent.tsx:71 | for a positive intensity the width-point intensity is positive, strictly decreasing in the width step, and below the centre's |
| Clusters.ClusterCount | src/components/MapComponent.tsx:107-108 | the count drawn for a base point is between 20 and 29, never 30 |
| Clusters.ClusterCountExtremes | src/components/MapComponent.tsx:108 | both ends, 20 and 29, are reached |
| Clusters.Jitter | src/components/MapComponent.tsx:112-113 | every offset lies in [−0.01, 0.01) |
| Clusters.Falloff | src/components/MapComponent.tsx:115-124 | cluster intensity is max(0.35, I − d/0.014·0.35): at least the floor and at least the linear drop-off, equal to the drop-off whenever above the floor, at most max(0.35, I) for any distance ≥ 0, and equal to that at distance 0 |
| Clusters.FalloffMonotone | src/components/MapComponent.tsx:116-124 | a farther point is never brighter |
| Clusters.ClusterPointNear | src/components/MapComponent.tsx:110-126 | a point built from two draws lies in its base point's jitter box, with bounded intensity, named after the base point |
| Clusters.ClusterRun | src/components/MapComponent.tsx:110-127 | the j-th point of a cluster uses draws 2j and 2j+1 after the count draw |
| Clusters.ClusterAroundBounds | src/components/MapComponent.tsx:106-127 | one base point gets 20 to 29 points, all near it, consuming one draw plus two per point |
| Clusters.ClusterPass | src/components/MapComponent.tsx:106-128 | the pass consumes one draw per base point and two per generated point |
| Clusters.ClusterPassBounds | src/components/MapComponent.tsx:106-128 | the pass adds between 20 and 29 points per base point, every one near some base point |
| Clusters.ClusterPassAppend | src/components/MapComponent.tsx:106-128 | the pass over a concatenation is the pass over the front followed by the pass over the back, resumed at the front's draw cursor |
| Clusters.ClusterBlock | src/components/MapComponent.tsx:106-128 | base point b owns one contiguous block of the output, right after the blocks of the points before it, of 20 to 29 points all near base point b |
| FloodColor.GetFloodColor | src/components/MapComponent.tsx:184-191 | the colour is one of four, and it is the default exactly for a level other than severe, moderate or low |
| FloodColor.FloodColorSeparatesLevels | src/components/MapComponent.tsx:185-188 | the three known levels get three distinct colours |
| HeatmapPoints.ValidPoints | src/components/HeatmapLayer.tsx:69 | every survivor of the filter is a non-null object with lat and lng keys, and there are no more survivors than entries |
| HeatmapPoints.ValidPointsFromInput | src/components/HeatmapLayer.tsx:69 | the filter invents nothing: every survivor is an entry of the input |
| HeatmapPoints.ValidPointsExact | src/components/HeatmapLayer.tsx:69 | exactly the kept entries survive, each as often as it occurs in the input |
| HeatmapPoints.ValidPointsAppend | src/components/HeatmapLayer.tsx:69 | the filter distributes over concatenation, so survivors keep their order |
| HeatmapPoints.ValidPointsIdentity | src/components/HeatmapLayer.tsx:69 | a list of well-formed points passes unchanged |
| HeatmapPoints.Weight | src/components/HeatmapLayer.tsx:73 | the weight never exceeds 1.0; a missing, zero or NaN intensity gives 0.8; a positive intensity gives a weight in (0, 1] |
| HeatmapPoints.WeightSaturation | src/components/HeatmapLayer.tsx:73 | for every non-zero (truthy) intensity, negative ones included, the weight is intensity·1.8 while that is at most 1 and 1.0 from there on |
| HeatmapPoints.WeightExamples | src/components/HeatmapLayer.tsx:73 | 0.9 saturates to 1.0, 0.3 becomes 0.54, 0 and missing both give 0.8 |
| HeatmapPoints.ToHeatTuples | src/components/HeatmapLayer.tsx:70-74 | one tuple per surviving entry (its contents are stated by HeatTuplesCopyCoordinates) |
| HeatmapPoints.HeatTuplesCopyCoordinates | src/components/HeatmapLayer.tsx:70-74 | each tuple copies its entry's lat and lng unchanged, in order, and its weight is the entry's intensity capped at 1.0 |
| HeatmapPoints.HeatTuplesAppend | src/components/HeatmapLayer.tsx:69-74 | converting a concatenation converts each part |
| HeatmapPoints.NaNLatitudeKept | src/components/HeatmapLayer.tsx:69-74 | an entry with a NaN latitude is not filtered out; its NaN reaches the tuple |
| OpacityPulse.Tick | src/components/HeatmapLayer.tsx:55-59 | at or above 0.8 the direction turns down, at or below 0.4 it turns up, otherwise it is kept; the value moves one 0.02 step in the new direction |
| OpacityPulse.TickInRange | src/components/HeatmapLayer.tsx:55-59 | from an even hundredth in [0.4, 0.8], a tick stays in range and moves exactly one step |
| OpacityPulse.RunInRange | src/components/HeatmapLayer.tsx:47-60 | any number of ticks from an in-range opacity, in either direction, stays in [0.4, 0.8] |
| OpacityPulse.Rising | src/components/HeatmapLayer.tsx:47-58 | from 0.4 rising, k ≤ 20 ticks give 0.4 + 0.02·k |
| OpacityPulse.Falling | src/components/HeatmapLayer.tsx:53-58 | after reaching 0.8 at tick 20, tick 20 + k gives 0.8 − 0.02·k, falling |
| OpacityPulse.FullPeriod | src/components/HeatmapLayer.tsx:47-60 | the oscillation has period 40 ticks: up to 0.8, down to 0.4, rising again |
| OpacityPulse.MinOpacity | src/components/HeatmapLayer.tsx:83 | minOpacity is the current opacity (hundredths divided by 100), in [0.4, 0.8] for an in-range opacity |
| OpacityPulse.Advance | src/components/HeatmapLayer.tsx:50-63 | while animating, a timer event performs exactly one tick; with animation off no tick happens; setting animate to its current value changes nothing; switching it off keeps the opacity (no reset); switching it on restarts with the increasing direction |
| OpacityPulse.RunShift | src/components/HeatmapLayer.tsx:55-59 | one tick followed by n ticks is n + 1 ticks |
| OpacityPulse.PlayTimers | src/components/HeatmapLayer.tsx:50-63 | while animating, k timer events move the component exactly as k oscillator ticks, so the tick lemmas describe the component |
| OpacityPulse.InitialPulse | src/components/HeatmapLayer.tsx:47-63 | from the initial opacity 0.4, animating, the opacity is 0.8 after 20 timer events, 0.4 after 40, and always in range |
| OpacityPulse.PlayInRange | src/components/HeatmapLayer.tsx:47-63 | over any sequence of ticks and toggles the opacity stays an even hundredth in [0.4, 0.8] |
| OpacityPulse.PlayStillWhenOff | src/components/HeatmapLayer.tsx:51 | with animation off and never switched on, the opacity never changes |
| HeatLayerLifecycle.DefaultGradientWellFormed | src/components/HeatmapLayer.tsx:27-34 | the default gradient's stops rise strictly from 0.0 to 1.0 |
| HeatLayerLifecycle.WithDefaults | src/components/HeatmapLayer.tsx:36-44 | an omitted prop takes its default (radius 30, blur 20, maxZoom 18, max 1.0, exactly the six-stop default gradient, animation on); a given prop is kept |
| HeatLayerLifecycle.Cleanup | src/components/HeatmapLayer.tsx:98-100 | the cleanup removes exactly the layer its run added and nothing else |
| HeatLayerLifecycle.RunEffect | src/components/HeatmapLayer.tsx:64-95 | without a map nothing is attached; with a map exactly one layer with a fresh id is attached, built from the converted points with the props' options and the opacity as minOpacity |
| HeatLayerLifecycle.Step | src/components/HeatmapLayer.tsx:64-101 | an unchanged dependency list (compared by identity for map, points and gradient) changes nothing; a changed one removes the previous layer and then attaches a fresh one when there is a map; unmount runs the last cleanup |
| HeatLayerLifecycle.MountedInv | src/components/HeatmapLayer.tsx:45-46 | before the first run no heat layer of this component is on the map |
| HeatLayerLifecycle.CleanupInv | src/components/HeatmapLayer.tsx:98-100 | after the cleanup none of this component's layers is on the map, and other layers are untouched |
| HeatLayerLifecycle.StepInv | src/components/HeatmapLayer.tsx:64-101 | every event keeps one-layer-at-most and leaves other layers alone. Every re-run with a map attaches exactly one fresh layer after removing the previous one, built from the current points, with options equal to the props except minOpacity, which is the current opacity. Unmount leaves none |
| HeatLayerLifecycle.ReplayInv | src/components/HeatmapLayer.tsx:64-101 | over any sequence of renders, at most one of this component's layers is on the map, and other layers are never touched |
| HeatLayerLifecycle.ReplayAppend | src/components/HeatmapLayer.tsx:101 | replaying one more event is one more step |
| HeatLayerLifecycle.UnmountLeavesNoLayer | src/components/HeatmapLayer.tsx:97-101 | after any renders and the unmount, none of this component's layers is left and the other layers are as before |
| HeatLayerLifecycle.FreshPointsArrayRebuilds | src/components/HeatmapLayer.tsx:101 | a new points array with unchanged contents still removes the old layer and attaches a new one |
| HeatLayerLifecycle.InPlaceMutationKeepsLayer | src/components/HeatmapLayer.tsx:101 | the same points array with changed contents does not re-run the effect; the map keeps the old layer |
| HeatLayerLifecycle.OpacityChangeRebuilds | src/components/HeatmapLayer.tsx:83-101 | a new opacity removes the old layer and adds a new one with the new minOpacity |
| WaterLevelIndicator.WaterLevelPercentage | src/components/WaterLevelIndicator.tsx:24-26 | for a positive maximum the percentage is current/max·100 up to the maximum level and exactly 100 at or above it; a zero maximum with a positive level gives 100 (min of 100 and +Infinity); it is never above 100 except NaN for 0/0, never +Infinity, and in [0, 100] for a non-negative level |
| WaterLevelIndicator.Classify | src/components/WaterLevelIndicator.tsx:29-33 | danger exactly when the level reaches the danger threshold, warning exactly when it reaches warning but not danger, safe otherwise |
| WaterLevelIndicator.WaterLevelColor | src/components/WaterLevelIndicator.tsx:29-33 | the marker colour is the colour of the classified level |
| WaterLevelIndicator.PopupBarClass | src/components/WaterLevelIndicator.tsx:66-72 | the popup bar's class is the class of the classified level |
| WaterLevelIndicator.ColorsFollowLevel | src/components/WaterLevelIndicator.tsx:29-33 | each marker colour goes with exactly one popup bar class (lines 66-72): danger with bg-blue-800, warning with bg-blue-600, safe with bg-blue-400, so both use the same thresholds and precedence; the three colours are distinct |
| WaterLevelIndicator.ClassifyMonotone | src/components/WaterLevelIndicator.tsx:29-33 | a higher water level never shows a lower state |
| WaterLevelIndicator.MarkerRadius | src/components/WaterLevelIndicator.tsx:36-40 | for a positive maximum the radius is 8 + 12·current/max up to the maximum level and 20 at or above it; 20 for a zero maximum with a positive level; 8 for an empty river; never above 20 (except NaN for 0/0), in [8, 20] for a non-negative level |
| WaterLevelIndicator.MarkerRadiusMonotone | src/components/WaterLevelIndicator.tsx:36-40 | for a fixed positive maximum, a higher level never gives a smaller marker |
| WaterLevelIndicator.CamLeStation | src/components/MapComponent.tsx:152-160 | the Cẩm Lệ gauge (3.8 of 5.0, warning 2.5, danger 4.0) shows warning with radius 17.12 |
| WaterLevelChart.MaxOf | src/components/WaterLevelChart.tsx:33 | the maximum is at least every element and is one of them |
| WaterLevelChart.MaxYValue | src/components/WaterLevelChart.tsx:33-34 | no data gives −Infinity; otherwise 1.2 times some reading and at least 1.2 times every reading, hence at least every non-negative reading |
| WaterLevelChart.Threshold | src/components/WaterLevelChart.tsx:37-38 | a missing or zero threshold becomes absent; any other is kept |
| WaterLevelChart.AnyAbove | src/components/WaterLevelChart.tsx:41-42 | true exactly when some reading is strictly above the threshold |
| WaterLevelChart.HasExceededWarning | src/components/WaterLevelChart.tsx:37-41 | true exactly when the first reading has a non-zero warning level and some reading is strictly above it |
| WaterLevelChart.HasExceededDanger | src/components/WaterLevelChart.tsx:38-42 | true exactly when the first reading has a non-zero danger level and some reading is strictly above it |
| WaterLevelChart.Banner | src/components/WaterLevelChart.tsx:52-77 | shown exactly when the first reading has a non-zero warning level; danger exactly when the danger test holds, warning exactly when only the warning test holds, normal when neither |
| WaterLevelChart.BannerMeaning | src/components/WaterLevelChart.tsx:37-77 | the banner is shown exactly when the first reading has a non-zero warning level; it says danger exactly when some reading is strictly above the first reading's danger level, warning exactly when otherwise some reading is strictly above the warning level, normal otherwise |
| WaterLevelChart.ThresholdsFromFirstReading | src/components/WaterLevelChart.tsx:37-42 | changing any later reading's thresholds changes neither thresholds, tests nor banner |
| WaterLevelChart.ChartStricterThanIndicator | src/components/WaterLevelChart.tsx:41 | a series peaking exactly at its warning level shows "normal" in the chart, while the map marker shows warning |
| WaterLevelChart.HanRiverShowsWarning | src/app/dashboard/flood/page.tsx:180-191 | the Han river series (peak 3.7, warning 3.0, danger 4.0) shows "Warning level exceeded" |
| WaterLevelChart.RainfallAxisMax | src/components/WaterLevelChart.tsx:94-98 | the rainfall axis exists exactly when the first reading has a rainfall value; its bound is 1.2 times some rainfall and at least 1.2 times every rainfall (a missing one counting as 0) |
| WaterLevelChart.Rainfalls | src/components/WaterLevelChart.tsx:98 | the series has one entry per reading: the reading's rainfall when present, 0 when missing |
| Js.Div | src/components/WaterLevelIndicator.tsx:25 | a nonzero divisor gives the real quotient; division by zero gives NaN exactly for 0/0, +Infinity exactly for a positive numerator and −Infinity exactly for a negative one |
| Js.Min | src/components/WaterLevelIndicator.tsx:25 | `Math.min` with a finite bound stays at or below the bound unless the other argument is NaN; for a finite argument it is the smaller of the two, and for +Infinity the bound |

## Left out

- The React and Leaflet plumbing is not modelled. This covers `L.heatLayer`, `addTo` and `removeLayer` internals, `useMap`, `useEffect`, `useState`, `useMemo` and the `dynamic` imports. The layer lifecycle models only what these do to the set of attached layers.
- The canvas `pulse` class and the marker-icon prototype fix are DOM side effects with no result to state.
- The 100 ms `setInterval` timing is not modelled. Ticks are events; their timing does not affect any stated property.
- `Math.random` and `Math.sqrt` are not computed. The draws are an input stream, and the distance is an abstract function known only to be non-negative.
- IEEE-754 rounding is not modelled. Finite numbers are exact reals, and the oscillator uses exact hundredths. The component's repeated `+ 0.02` can drift slightly outside [0.4, 0.8].
- Negative zero is not modelled. Every zero is +0, so `x / 0` with x ≠ 0 takes the numerator's sign.
- String formatting (`toFixed`, the interpolated point names, the chart's tooltip labels) is left out. Point names are kept as structured labels.
- The chart's rendering (recharts components, colours and layout classes of the banner) is left out. The banner is modelled by its status and text.
- WaterLevelChart.Reading: water levels and thresholds are reals. A NaN reading or threshold is not modelled.
- HeatmapPoints.Entry: a key that is present but holds `undefined`, and non-number field values, are not modelled. The filter treats such an entry as kept, as the source does, but the model has no value for it.
- RiverPattern.River: a non-integer segment count is not modelled. The count is an integer.
- HeatLayerLifecycle.Step: instance identity of the map, the points array and the gradient object is an abstract number; which renders create new instances is up to the caller of the model.
- The page files, the dashboard layout, the weather chart, the flood statistics, the summary card and the ambient heat-plugin type declarations are not part of this model. They are presentational and contain no computation of the kind modelled here.

=== FILE: clusters.dfy ===
/**
 The cluster pass of `generateFloodHeatData`: around every base point a random
 number of jittered points whose intensity falls off with their distance from
 the base point, never below a floor.

 `Math.random()` is modelled as a stream of draws `rand(0), rand(1), ...`
 consumed in the source's call order (one draw for the count, then two per
 point: latitude offset, longitude offset). `Math.sqrt` is not available, so
 the length of an offset vector is a parameter `dist` of which only
 non-negativity is assumed.
 */
module Clusters {
  import opened Js
  import opened HeatPoints

  /** Draw number `k` of `Math.random()`. */
  type Draws = nat -> real

  /** Every draw lies in `[0, 1)`, as `Math.random()` promises. */
  ghost predicate UnitDraws(rand: Draws) {
    forall k: nat :: 0.0 <= rand(k) < 1.0
  }

  /** The length of a jitter vector `(dLat, dLng)`. */
  type Metric = (real, real) -> real

  ghost predicate NonNegative(dist: Metric) {
    forall dLat, dLng :: dist(dLat, dLng) >= 0.0
  }

  const MinCount: int := 20
  const CountSpread: real := 10.0
  const JitterSpan: real := 0.02
  const ReferenceDistance: real := 0.014
  const Dropoff: real := 0.35
  const IntensityFloor: real := 0.35

  /**
   `20 + Math.floor(u * 10)`: between 20 and 29 points for a draw in `[0, 1)`
   (the source comment's "20-30" is never reached at 30).
   */
  function ClusterCount(u: real): (n: int)
    ensures 0.0 <= u < 1.0 ==> 20 <= n <= 29
    ensures 0.0 <= u < 1.0 ==> n != 30
  {
    MinCount + (u * CountSpread).Floor
  }

  /** Both ends of the count range are reached. */
  lemma ClusterCountExtremes()
    ensures ClusterCount(0.0) == 20
    ensures ClusterCount(0.95) == 29
  {
    assert (0.95 * CountSpread).Floor == 9;
  }

  /** `(u - 0.5) * 0.02`: an offset in `[-0.01, 0.01)` for a draw in `[0, 1)`. */
  function Jitter(u: real): (o: real)
    ensures 0.0 <= u < 1.0 ==> -0.01 <= o < 0.01
  {
    (u - 0.5) * JitterSpan
  }

  /**
   `Math.max(0.35, centre - d / 0.014 * 0.35)`: never below the floor or the
   linear drop-off, equal to the drop-off whenever above the floor, never
   above the larger of the floor and the centre's intensity, and exactly that
   at distance zero.
   */
  function Falloff(centre: real, d: real): (r: real)
    ensures r >= IntensityFloor
    ensures d >= 0.0 ==> r <= MaxReal(IntensityFloor, centre)
    ensures d == 0.0 ==> r == MaxReal(IntensityFloor, centre)
    ensures r >= centre - d / ReferenceDistance * Dropoff
    ensures r > IntensityFloor ==> r == centre - d / ReferenceDistance * Dropoff
  {
    MaxReal(IntensityFloor, centre - d / ReferenceDistance * Dropoff)
  }

  /** Farther points are never brighter. */
  lemma FalloffMonotone(centre: real, d1: real, d2: real)
    requires 0.0 <= d1 <= d2
    ensures Falloff(centre, d2) <= Falloff(centre, d1)
  {
    assert d1 / ReferenceDistance <= d2 / ReferenceDistance;
  }

  /** The cluster point built from two draws around base point `p`. */
  function ClusterPoint(p: HeatPoint, u1: real, u2: real, dist: Metric): HeatPoint {
    var dLat := Jitter(u1);
    var dLng := Jitter(u2);
    HeatPoint(p.lat + dLat, p.lng + dLng, Falloff(p.intensity, dist(dLat, dLng)), Area(p.name))
  }

  /**
   `q` lies in the jitter box of `p`, its intensity is between the floor and
   `max(floor, p.intensity)`, and it is named after `p`.
   */
  predicate NearCentre(q: HeatPoint, p: HeatPoint) {
    && p.lat - 0.01 <= q.lat < p.lat + 0.01
    && p.lng - 0.01 <= q.lng < p.lng + 0.01
    && IntensityFloor <= q.intensity <= MaxReal(IntensityFloor, p.intensity)
    && q.name == Area(p.name)
  }

  /** `q` is near the centre of one of the base points. */
  predicate NearSomeCentre(q: HeatPoint, base: seq<HeatPoint>) {
    exists b :: 0 <= b < |base| && NearCentre(q, base[b])
  }

  lemma ClusterPointNear(p: HeatPoint, u1: real, u2: real, dist: Metric)
    requires 0.0 <= u1 < 1.0 && 0.0 <= u2 < 1.0
    requires NonNegative(dist)
    ensures NearCentre(ClusterPoint(p, u1, u2, dist), p)
  {
    assert dist(Jitter(u1), Jitter(u2)) >= 0.0;
  }

  /** `k` cluster points around `p`, the first one taking draws `next` and `next + 1`. */
  function ClusterRun(p: HeatPoint, rand: Draws, next: nat, k: nat, dist: Metric): (s: seq<HeatPoint>)
    ensures |s| == k
    ensures forall j :: 0 <= j < k ==>
      s[j] == ClusterPoint(p, rand(next + 2 * j), rand(next + 2 * j + 1), dist)
    decreases k
  {
    if k == 0 then []
    else [ClusterPoint(p, rand(next), rand(next + 1), dist)] + ClusterRun(p, rand, next + 2, k - 1, dist)
  }

  /** Points generated so far, and the index of the next unused draw. */
  datatype Drawn = Drawn(points: seq<HeatPoint>, next: nat)

  /** The cluster around one base point: draw the count, then draw each point. */
  function ClusterAround(p: HeatPoint, rand: Draws, cursor: nat, dist: Metric): Drawn {
    var n := ClusterCount(rand(cursor));
    var k: nat := if n > 0 then n else 0;
    Drawn(ClusterRun(p, rand, cursor + 1, k, dist), cursor + 1 + 2 * k)
  }

  lemma ClusterAroundBounds(p: HeatPoint, rand: Draws, cursor: nat, dist: Metric)
    requires UnitDraws(rand) && NonNegative(dist)
    ensures 20 <= |ClusterAround(p, rand, cursor, dist).points| <= 29
    ensures ClusterAround(p, rand, cursor, dist).next == cursor + 1 + 2 * |ClusterAround(p, rand, cursor, dist).points|
    ensures forall q :: q in ClusterAround(p, rand, cursor, dist).points ==> NearCentre(q, p)
  {
    var c := ClusterAround(p, rand, cursor, dist);
    assert 0.0 <= rand(cursor) < 1.0;
    forall q | q in c.points
      ensures NearCentre(q, p)
    {
      var j :| 0 <= j < |c.points| && c.points[j] == q;
      ClusterPointNear(p, rand(cursor + 1 + 2 * j), rand(cursor + 1 + 2 * j + 1), dist);
    }
  }

  /**
   `basePoints.forEach(...)`: the clusters of all base points, in order. It
   consumes one draw per base point and two per generated point.
   */
  function ClusterPass(base: seq<HeatPoint>, rand: Draws, cursor: nat, dist: Metric): (r: Drawn)
    ensures r.next == cursor + |base| + 2 * |r.points|
    decreases |base|
  {
    if |base| == 0 then Drawn([], cursor)
    else
      var first := ClusterAround(base[0], rand, cursor, dist);
      var rest := ClusterPass(base[1..], rand, first.next, dist);
      Drawn(first.points + rest.points, rest.next)
  }

  /**
   The cluster pass adds between 20 and 29 points per base point, and every
   point it adds is a cluster point of some base point.
   */
  lemma {:induction false} ClusterPassBounds(base: seq<HeatPoint>, rand: Draws, cursor: nat, dist: Metric)
    requires UnitDraws(rand) && NonNegative(dist)
    ensures 20 * |base| <= |ClusterPass(base, rand, cursor, dist).points| <= 29 * |base|
    ensures forall q :: q in ClusterPass(base, rand, cursor, dist).points ==> NearSomeCentre(q, base)
    decreases |base|
  {
    if |base| > 0 {
      var first := ClusterAround(base[0], rand, cursor, dist);
      ClusterAroundBounds(base[0], rand, cursor, dist);
      ClusterPassBounds(base[1..], rand, first.next, dist);
      var all := ClusterPass(base, rand, cursor, dist).points;
      forall q | q in all
        ensures NearSomeCentre(q, base)
      {
        if q in first.points {
          assert NearCentre(q, base[0]);
        } else {
          assert NearSomeCentre(q, base[1..]);
          var b :| 0 <= b < |base[1..]| && NearCentre(q, base[1..][b]);
          assert NearCentre(q, base[b + 1]);
        }
      }
    }
  }

  /**
   The pass over a concatenation is the pass over the front followed by the
   pass over the back, which starts at the cursor the front left behind.
   */
  lemma {:induction false} ClusterPassAppend(a: seq<HeatPoint>, b: seq<HeatPoint>, rand: Draws, cursor: nat, dist: Metric)
    ensures ClusterPass(a + b, rand, cursor, dist).points ==
      ClusterPass(a, rand, cursor, dist).points
      + ClusterPass(b, rand, ClusterPass(a, rand, cursor, dist).next, dist).points
    ensures ClusterPass(a + b, rand, cursor, dist).next ==
      ClusterPass(b, rand, ClusterPass(a, rand, cursor, dist).next, dist).next
    decreases |a|
  {
    if |a| == 0 {
      assert a + b == b;
    } else {
      var first := ClusterAround(a[0], rand, cursor, dist);
      assert (a + b)[0] == a[0];
      assert (a + b)[1..] == a[1..] + b;
      ClusterPassAppend(a[1..], b, rand, first.next, dist);
      var front := ClusterPass(a[1..], rand, first.next, dist);
      ClusterPassAppendStep(first, front, ClusterPass(b, rand, front.next, dist),
        ClusterPass(a[1..] + b, rand, first.next, dist),
        ClusterPass(a + b, rand, cursor, dist), ClusterPass(a, rand, cursor, dist));
    }
  }

  /**
   The inductive step of `ClusterPassAppend`, stated over the unfolded
   pieces: the first cluster, the rest of the front, and the back.
   */
  lemma ClusterPassAppendStep(first: Drawn, front: Drawn, back: Drawn, rest: Drawn, whole: Drawn, head: Drawn)
    requires rest == Drawn(front.points + back.points, back.next)
    requires whole == Drawn(first.points + rest.points, rest.next)
    requires head == Drawn(first.points + front.points, front.next)
    ensures whole == Drawn(head.points + back.points, back.next)
  {
    assert first.points + (front.points + back.points) == (first.points + front.points) + back.points;
  }

  /**
   Base point `b` owns one contiguous block of the pass's output: it starts
   right after the blocks of the base points before it, holds 20 to 29
   points, and every point in it lies near `base[b]`.
   */
  lemma ClusterBlock(base: seq<HeatPoint>, rand: Draws, cursor: nat, dist: Metric, b: nat)
    requires UnitDraws(rand) && NonNegative(dist)
    requires b < |base|
    ensures var before := ClusterPass(base[..b], rand, cursor, dist);
            var block := ClusterAround(base[b], rand, before.next, dist).points;
            && 20 <= |block| <= 29
            && (forall q :: q in block ==> NearCentre(q, base[b]))
            && |before.points| + |block| <= |ClusterPass(base, rand, cursor, dist).points|
            && ClusterPass(base, rand, cursor, dist).points[|before.points|..|before.points| + |block|] == block
  {
    var before := ClusterPass(base[..b], rand, cursor, dist);
    var block := ClusterAround(base[b], rand, before.next, dist);
    ClusterAroundBounds(base[b], rand, before.next, dist);
    assert base == base[..b] + base[b..];
    ClusterPassAppend(base[..b], base[b..], rand, cursor, dist);
    var tail := ClusterPass(base[b..], rand, before.next, dist);
    assert base[b..][0] == base[b];
    assert tail.points == block.points + ClusterPass(base[b..][1..], rand, block.next, dist).points;
    var whole := ClusterPass(base, rand, cursor, dist).points;
    assert whole == before.points + block.points + ClusterPass(base[b..][1..], rand, block.next, dist).points;
  }
}

=== FILE: flood_color.dfy ===
/**
 `getFloodColor`: the stroke and fill colour of a rainfall-zone circle.
 */
module FloodColor {

  const SevereColor: string := "#1e40af"
  const ModerateColor: string := "#3b82f6"
  const LowColor: string := "#93c5fd"
  const DefaultColor: string := "#60a5fa"

  /** The three levels a rainfall zone is tagged with. */
  predicate KnownLevel(level: string) {
    level == "severe" || level == "moderate" || level == "low"
  }

  /**
   One of the four colours; the default exactly for a level that is not one
   of the three known ones.
   */
  function GetFloodColor(level: string): (c: string)
    ensures c in [SevereColor, ModerateColor, LowColor, DefaultColor]
    ensures c == DefaultColor <==> !KnownLevel(level)
  {
    match level
    case "severe" => SevereColor
    case "moderate" => ModerateColor
    case "low" => LowColor
    case _ => DefaultColor
  }

  /** The colour tells the known levels apart: three levels, three distinct colours. */
  lemma FloodColorSeparatesLevels(a: string, b: string)
    requires KnownLevel(a) && KnownLevel(b)
    ensures GetFloodColor(a) == GetFloodColor(b) <==> a == b
  {
  }
}

=== FILE: flood_heat_data.dfy ===
/**
 `generateFloodHeatData`: the point list the flood map's heat layer shows.
 It is the base risk points verbatim, then three river corridors, then one
 random cluster per base point.
 */
module FloodHeatData {
  import opened HeatPoints
  import opened RiverPattern
  import opened Clusters

  /** The fifteen named risk areas of Da Nang. */
  const BasePoints: seq<HeatPoint> := [
    HeatPoint(16.047, 108.206, 1.0, District("Hải Châu")),
    HeatPoint(16.067, 108.22, 0.95, District("Sơn Trà")),
    HeatPoint(16.03, 108.19, 0.9, District("Hòa Vang")),
    HeatPoint(16.055, 108.195, 0.95, District("Thanh Khê")),
    HeatPoint(16.075, 108.17, 0.9, District("Liên Chiểu")),
    HeatPoint(16.06, 108.24, 0.85, District("Ngũ Hành Sơn")),
    HeatPoint(16.04, 108.17, 0.9, District("Cẩm Lệ")),
    HeatPoint(16.02, 108.22, 0.85, District("Hòa Vang")),
    HeatPoint(16.058, 108.223, 1.0, District("Sông Hàn - Hải Châu")),
    HeatPoint(16.046, 108.227, 1.0, District("Sông Hàn - Sơn Trà")),
    HeatPoint(16.062, 108.172, 0.9, District("Sông Cu Đê - Liên Chiểu")),
    HeatPoint(16.031, 108.211, 0.95, District("Sông Cẩm Lệ")),
    HeatPoint(16.098, 108.247, 0.8, District("Bờ biển Sơn Trà")),
    HeatPoint(16.048, 108.257, 0.85, District("Bờ biển Ngũ Hành Sơn")),
    HeatPoint(16.001, 108.244, 0.8, District("Bờ biển phía Nam"))
  ]

  const HanRiver: River := River(16.065, 108.223, 16.032, 108.227, 15, 1.0, 0.006)
  const CuDeRiver: River := River(16.092, 108.133, 16.076, 108.191, 10, 0.95, 0.004)
  const CamLeRiver: River := River(16.031, 108.211, 16.006, 108.228, 10, 0.95, 0.005)

  /** The corridors, in the order they are generated. */
  const Rivers: seq<River> := [HanRiver, CuDeRiver, CamLeRiver]

  /** Segments a list of corridors steps through (a non-positive count steps through none). */
  function TotalSegments(rivers: seq<River>): nat {
    if |rivers| == 0 then 0
    else (if rivers[0].segments > 0 then rivers[0].segments else 0) + TotalSegments(rivers[1..])
  }

  /** The patterns of several corridors, one after another. */
  function Corridors(rivers: seq<River>): (s: seq<HeatPoint>)
    ensures |s| == PointsPerSegment * TotalSegments(rivers)
  {
    if |rivers| == 0 then [] else Pattern(rivers[0]) + Corridors(rivers[1..])
  }

  /**
   The generator with its fixed inputs as parameters: base points, corridors,
   the random draws and the distance. It begins with the base points,
   unchanged and in order.
   */
  function Synthesize(base: seq<HeatPoint>, rivers: seq<River>, rand: Draws, dist: Metric): (s: seq<HeatPoint>)
    ensures |base| <= |s| && s[..|base|] == base
  {
    base + Corridors(rivers) + ClusterPass(base, rand, 0, dist).points
  }

  /** `generateFloodHeatData()` itself, given the random draws and the distance. */
  function GenerateFloodHeatData(rand: Draws, dist: Metric): (s: seq<HeatPoint>)
    ensures |BasePoints| <= |s| && s[..|BasePoints|] == BasePoints
  {
    Synthesize(BasePoints, Rivers, rand, dist)
  }

  /**
   Only the cluster pass is random: the base points and the corridors, which
   come first, are the same whatever the draws and the distance.
   */
  lemma DeterministicPrefix(base: seq<HeatPoint>, rivers: seq<River>,
                            rand1: Draws, dist1: Metric, rand2: Draws, dist2: Metric)
    ensures var n := |base| + PointsPerSegment * TotalSegments(rivers);
      && n <= |Synthesize(base, rivers, rand1, dist1)|
      && n <= |Synthesize(base, rivers, rand2, dist2)|
      && Synthesize(base, rivers, rand1, dist1)[..n] == Synthesize(base, rivers, rand2, dist2)[..n]
      && Synthesize(base, rivers, rand1, dist1)[|base|..n] == Corridors(rivers)
  {
    var n := |base| + PointsPerSegment * TotalSegments(rivers);
    assert Synthesize(base, rivers, rand1, dist1)[..n] == base + Corridors(rivers);
    assert Synthesize(base, rivers, rand2, dist2)[..n] == base + Corridors(rivers);
  }

  /**
   Past the corridors come 20 to 29 points per base point, each in the jitter
   box of a base point with an intensity between the floor and that base
   point's intensity (at least the floor).
   */
  lemma SynthesizeClusters(base: seq<HeatPoint>, rivers: seq<River>, rand: Draws, dist: Metric)
    requires UnitDraws(rand) && NonNegative(dist)
    ensures var n := |base| + PointsPerSegment * TotalSegments(rivers);
      var s := Synthesize(base, rivers, rand, dist);
      && n + 20 * |base| <= |s| <= n + 29 * |base|
      && forall k :: n <= k < |s| ==> NearSomeCentre(s[k], base)
  {
    var prefix := base + Corridors(rivers);
    var c := ClusterPass(base, rand, 0, dist).points;
    ClusterPassBounds(base, rand, 0, dist);
    TailFromClusters(prefix, c, base);
  }

  lemma TailFromClusters(prefix: seq<HeatPoint>, c: seq<HeatPoint>, base: seq<HeatPoint>)
    requires forall q :: q in c ==> NearSomeCentre(q, base)
    ensures forall k :: |prefix| <= k < |prefix + c| ==> NearSomeCentre((prefix + c)[k], base)
  {
    forall k | |prefix| <= k < |prefix + c|
      ensures NearSomeCentre((prefix + c)[k], base)
    {
      assert (prefix + c)[k] == c[k - |prefix|];
      assert c[k - |prefix|] in c;
    }
  }

  /** After the base points comes the first corridor's start. */
  lemma CorridorsStartAfterBase(base: seq<HeatPoint>, rivers: seq<River>, rand: Draws, dist: Metric)
    requires |rivers| > 0 && rivers[0].segments > 0
    ensures |base| < |Synthesize(base, rivers, rand, dist)|
    ensures Synthesize(base, rivers, rand, dist)[|base|].lat == rivers[0].startLat
    ensures Synthesize(base, rivers, rand, dist)[|base|].lng == rivers[0].startLng
  {
    var s := Synthesize(base, rivers, rand, dist);
    var c := Corridors(rivers);
    FirstPointIsStart(rivers[0]);
    assert c[0] == Pattern(rivers[0])[0];
    assert s[|base|] == c[0];
  }

  /** The three corridors step through 15 + 10 + 10 segments. */
  lemma DashboardSegments()
    ensures TotalSegments(Rivers) == 35
  {
    assert TotalSegments([CamLeRiver]) == 10 by {
      assert [CamLeRiver][1..] == [];
    }
    assert TotalSegments([CuDeRiver, CamLeRiver]) == 20 by {
      assert [CuDeRiver, CamLeRiver][1..] == [CamLeRiver];
    }
    assert Rivers[1..] == [CuDeRiver, CamLeRiver];
  }

  /**
   The dashboard's data set: 470 deterministic points (15 base points and
   13 × 35 corridor points) followed by 300 to 435 cluster points.
   */
  lemma DashboardHeatDataSize(rand: Draws, dist: Metric)
    requires UnitDraws(rand) && NonNegative(dist)
    ensures 770 <= |GenerateFloodHeatData(rand, dist)| <= 905
  {
    DashboardSegments();
    SynthesizeClusters(BasePoints, Rivers, rand, dist);
  }

  /** The base points come first, and the corridors start at the Han river's upper end. */
  lemma DashboardHeatDataStart(rand: Draws, dist: Metric)
    ensures |GenerateFloodHeatData(rand, dist)| > 15
    ensures GenerateFloodHeatData(rand, dist)[..15] == BasePoints
    ensures GenerateFloodHeatData(rand, dist)[15].lat == 16.065
    ensures GenerateFloodHeatData(rand, dist)[15].lng == 108.223
  {
    CorridorsStartAfterBase(BasePoints, Rivers, rand, dist);
  }
}

=== FILE: heat_layer_lifecycle.dfy ===
/**
 The layer effect of `HeatmapLayer`. Whenever one of its dependencies
 `[map, points, radius, blur, maxZoom, max, gradient, opacity, animate]`
 changes, React first runs the previous run's cleanup, which removes the layer
 that run added, and then runs the effect again, which builds one new heat
 layer and adds it to the map. Unmounting runs the last cleanup.

 The map surface is an abstract set of attached layer ids; layers other
 components put on the map (tile layers, markers) are `Foreign` ids that this
 effect never touches.
 */
module HeatLayerLifecycle {
  import opened Js
  import opened HeatmapPoints
  import opened OpacityPulse

  /** One colour stop of the heat gradient. */
  datatype Stop = Stop(at: real, color: string)

  const DefaultGradient: seq<Stop> := [
    Stop(0.0, "#f0f9ff"), Stop(0.2, "#bae6fd"), Stop(0.4, "#38bdf8"),
    Stop(0.6, "#0284c7"), Stop(0.8, "#1e40af"), Stop(1.0, "#1e3a8a")
  ]

  const DefaultRadius: real := 30.0
  const DefaultBlur: real := 20.0
  const DefaultMaxZoom: real := 18.0
  const DefaultMax: real := 1.0

  /** Stops strictly increasing from 0.0 to 1.0, as the plugin interpolates them. */
  predicate WellFormedGradient(g: seq<Stop>) {
    && |g| >= 2
    && g[0].at == 0.0 && g[|g| - 1].at == 1.0
    && forall i, j :: 0 <= i < j < |g| ==> g[i].at < g[j].at
  }

  lemma DefaultGradientWellFormed()
    ensures WellFormedGradient(DefaultGradient)
  {
  }

  /** The props as the caller passes them; `None` is an omitted (undefined) prop. */
  datatype GivenProps = GivenProps(
    points: seq<Entry>,
    radius: Option<real>, blur: Option<real>, maxZoom: Option<real>, max: Option<real>,
    gradient: Option<seq<Stop>>, animate: Option<bool>)

  /** The props after JavaScript's parameter defaults have been applied. */
  datatype Props = Props(
    points: seq<Entry>,
    radius: real, blur: real, maxZoom: real, max: real,
    gradient: seq<Stop>, animate: bool)

  function OrElse<T>(o: Option<T>, default: T): T {
    match o
    case Some(v) => v
    case None => default
  }

  /**
   Destructuring defaults: an omitted prop takes its default (radius 30,
   blur 20, maxZoom 18, max 1.0, the six-stop blue gradient, animation on),
   a given prop is kept as given.
   */
  function WithDefaults(g: GivenProps): (p: Props)
    ensures p.points == g.points
    ensures g.radius.None? ==> p.radius == 30.0
    ensures g.blur.None? ==> p.blur == 20.0
    ensures g.maxZoom.None? ==> p.maxZoom == 18.0
    ensures g.max.None? ==> p.max == 1.0
    ensures g.gradient.None? ==> p.gradient == DefaultGradient && WellFormedGradient(p.gradient)
    ensures g.animate.None? ==> p.animate
    ensures g.radius.Some? ==> p.radius == g.radius.value
    ensures g.blur.Some? ==> p.blur == g.blur.value
    ensures g.maxZoom.Some? ==> p.maxZoom == g.maxZoom.value
    ensures g.max.Some? ==> p.max == g.max.value
    ensures g.gradient.Some? ==> p.gradient == g.gradient.value
    ensures g.animate.Some? ==> p.animate == g.animate.value
  {
    DefaultGradientWellFormed();
    Props(g.points,
          OrElse(g.radius, DefaultRadius), OrElse(g.blur, DefaultBlur),
          OrElse(g.maxZoom, DefaultMaxZoom), OrElse(g.max, DefaultMax),
          OrElse(g.gradient, DefaultGradient), OrElse(g.animate, true))
  }

  /** The options object handed to `L.heatLayer`. */
  datatype LayerOptions = LayerOptions(
    radius: real, blur: real, maxZoom: real, max: real,
    gradient: seq<Stop>, minOpacity: real)

  function OptionsFor(p: Props, opacity: int): LayerOptions {
    LayerOptions(p.radius, p.blur, p.maxZoom, p.max, p.gradient, MinOpacity(opacity))
  }

  /** A heat layer built by one effect run. */
  datatype Layer = Layer(id: nat, data: seq<HeatTuple>, options: LayerOptions)

  /** Ids of layers on the map: ones this component made, and everybody else's. */
  datatype LayerId = Foreign(n: nat) | Heat(n: nat)

  /**
   The effect's dependency list. React compares its entries with `Object.is`,
   so the map, the `points` array and the `gradient` object count by identity:
   `mapRef` is the map instance (`None` when `map` is falsy), `pointsRef` and
   `gradientRef` name the array and object instances, and `props` holds their
   current contents. Numbers and booleans count by value.
   */
  datatype Deps = Deps(
    mapRef: Option<nat>, pointsRef: nat, gradientRef: nat, props: Props, opacity: int)
  {
    predicate MapReady() {
      mapRef.Some?
    }
  }

  /**
   Whether React sees the dependency list as unchanged: entry by entry, the
   same instances and the same numbers and booleans. The contents of the
   `points` array and the `gradient` object are not looked at.
   */
  predicate SameDeps(a: Deps, b: Deps) {
    && a.mapRef == b.mapRef
    && a.pointsRef == b.pointsRef
    && a.gradientRef == b.gradientRef
    && a.props.radius == b.props.radius
    && a.props.blur == b.props.blur
    && a.props.maxZoom == b.props.maxZoom
    && a.props.max == b.props.max
    && a.opacity == b.opacity
    && a.props.animate == b.props.animate
  }

  /** Whether a render with `d` re-runs the effect after the run that saw `prev`. */
  predicate Changed(prev: Option<Deps>, d: Deps) {
    prev.None? || !SameDeps(prev.value, d)
  }

  /**
   The map's attached layers, the dependencies of the last effect run, the
   layer the pending cleanup will remove, and the next fresh layer id.
   */
  datatype Controller = Controller(
    surface: set<LayerId>, deps: Option<Deps>, pending: Option<Layer>, nextId: nat)

  /** This component's layers currently on the map. */
  function HeatIds(surface: set<LayerId>): set<nat> {
    set id | id in surface && id.Heat? :: id.n
  }

  /** Everybody else's layers currently on the map. */
  function ForeignIds(surface: set<LayerId>): set<LayerId> {
    set id | id in surface && id.Foreign?
  }

  /** Before the first render: the map holds only other components' layers. */
  function Mounted(surface: set<LayerId>): Controller {
    Controller(surface, None, None, 0)
  }

  /** The cleanup `() => map.removeLayer(heatLayer)`: it removes that layer and nothing else. */
  function Cleanup(c: Controller): (d: Controller)
    ensures d.pending.None? && d.nextId == c.nextId
    ensures c.pending.Some? ==> d.surface == c.surface - {Heat(c.pending.value.id)}
    ensures c.pending.None? ==> d.surface == c.surface
  {
    match c.pending
    case None => c
    case Some(l) => c.(surface := c.surface - {Heat(l.id)}, pending := None)
  }

  /**
   One effect run: without a map it returns early (no layer, no cleanup);
   otherwise it converts the points, builds a layer whose `minOpacity` is the
   current opacity, and adds it.
   */
  function RunEffect(c: Controller, d: Deps): (r: Controller)
    ensures r.deps == Some(d)
    ensures !d.MapReady() ==> r.surface == c.surface && r.pending.None?
    ensures d.MapReady() ==>
      && r.pending.Some? && r.pending.value.id == c.nextId
      && r.surface == c.surface + {Heat(c.nextId)}
      && r.pending.value.data == ToHeatTuples(d.props.points)
      && r.pending.value.options == OptionsFor(d.props, d.opacity)
  {
    if !d.MapReady() then c.(deps := Some(d), pending := None)
    else
      var l := Layer(c.nextId, ToHeatTuples(d.props.points), OptionsFor(d.props, d.opacity));
      Controller(c.surface + {Heat(l.id)}, Some(d), Some(l), c.nextId + 1)
  }

  /** A render with the given dependencies, or the unmount. */
  datatype Event = Render(deps: Deps) | Unmount

  /**
   React's effect protocol: an unchanged dependency list leaves everything as
   it is; a changed one first runs the previous cleanup and then the effect,
   which attaches a layer with a fresh id when there is a map; the unmount
   runs the last cleanup.
   */
  function Step(c: Controller, e: Event): (r: Controller)
    ensures e.Render? && !Changed(c.deps, e.deps) ==> r == c
    ensures e.Render? && Changed(c.deps, e.deps) ==> r.deps == Some(e.deps)
    ensures e.Render? && Changed(c.deps, e.deps) && e.deps.MapReady() ==>
      && r.surface == Cleanup(c).surface + {Heat(c.nextId)}
      && r.pending.Some? && r.pending.value.id == c.nextId
    ensures e.Render? && Changed(c.deps, e.deps) && !e.deps.MapReady() ==>
      r.surface == Cleanup(c).surface && r.pending.None?
    ensures e.Unmount? ==> r.surface == Cleanup(c).surface && r.pending.None? && r.deps.None?
  {
    match e
    case Render(d) => if Changed(c.deps, d) then RunEffect(Cleanup(c), d) else c
    case Unmount => Cleanup(c).(deps := None)
  }

  function Replay(c: Controller, events: seq<Event>): Controller
    decreases |events|
  {
    if |events| == 0 then c else Replay(Step(c, events[0]), events[1..])
  }

  /**
   Between events, this component's layers on the map are exactly the one
   the pending cleanup will remove (or none), and ids handed out so far are
   below the next fresh id.
   */
  predicate Inv(c: Controller) {
    && HeatIds(c.surface) == (if c.pending.Some? then {c.pending.value.id} else {})
    && (c.pending.Some? ==> c.pending.value.id < c.nextId)
  }

  lemma MountedInv(surface: set<LayerId>)
    requires forall id :: id in surface ==> id.Foreign?
    ensures Inv(Mounted(surface))
  {
    assert HeatIds(surface) == {};
  }

  lemma CleanupInv(c: Controller)
    requires Inv(c)
    ensures HeatIds(Cleanup(c).surface) == {}
    ensures ForeignIds(Cleanup(c).surface) == ForeignIds(c.surface)
  {
    if c.pending.Some? {
      HeatIdsRemove(c.surface, c.pending.value.id);
    }
  }

  lemma HeatIdsRemove(surface: set<LayerId>, n: nat)
    ensures HeatIds(surface - {Heat(n)}) == HeatIds(surface) - {n}
    ensures ForeignIds(surface - {Heat(n)}) == ForeignIds(surface)
  {
  }

  lemma HeatIdsAdd(surface: set<LayerId>, n: nat)
    ensures HeatIds(surface + {Heat(n)}) == HeatIds(surface) + {n}
    ensures ForeignIds(surface + {Heat(n)}) == ForeignIds(surface)
  {
  }

  /**
   Each event keeps the invariant and leaves other components' layers alone;
   every re-run with a map attaches exactly one fresh layer, built from the
   current points and props, with `minOpacity` the current opacity, after the
   previous one was removed.
   */
  lemma StepInv(c: Controller, e: Event)
    requires Inv(c)
    ensures Inv(Step(c, e))
    ensures ForeignIds(Step(c, e).surface) == ForeignIds(c.surface)
    ensures e.Render? && e.deps.MapReady() && Changed(c.deps, e.deps) ==>
      var l := Step(c, e).pending;
      && l.Some?
      && HeatIds(Step(c, e).surface) == {l.value.id}
      && l.value.id !in HeatIds(c.surface)
      && l.value.data == ToHeatTuples(e.deps.props.points)
      && l.value.options.radius == e.deps.props.radius
      && l.value.options.blur == e.deps.props.blur
      && l.value.options.maxZoom == e.deps.props.maxZoom
      && l.value.options.max == e.deps.props.max
      && l.value.options.gradient == e.deps.props.gradient
      && l.value.options.minOpacity == MinOpacity(e.deps.opacity)
    ensures e.Unmount? ==> HeatIds(Step(c, e).surface) == {}
  {
    CleanupInv(c);
    match e
    case Unmount =>
    case Render(d) =>
      if Changed(c.deps, d) && d.MapReady() {
        var b := Cleanup(c);
        var s := Step(c, e);
        assert s.surface == b.surface + {Heat(b.nextId)};
        HeatIdsAdd(b.surface, b.nextId);
      }
  }

  /**
   Over any sequence of renders, at most one of this component's layers is on
   the map between events, and the other layers are never touched.
   */
  lemma {:induction false} ReplayInv(c: Controller, events: seq<Event>)
    requires Inv(c)
    ensures Inv(Replay(c, events))
    ensures |HeatIds(Replay(c, events).surface)| <= 1
    ensures ForeignIds(Replay(c, events).surface) == ForeignIds(c.surface)
    decreases |events|
  {
    if |events| > 0 {
      StepInv(c, events[0]);
      ReplayInv(Step(c, events[0]), events[1..]);
    }
  }

  lemma {:induction false} ReplayAppend(c: Controller, events: seq<Event>, e: Event)
    ensures Replay(c, events + [e]) == Step(Replay(c, events), e)
    decreases |events|
  {
    if |events| == 0 {
      assert events + [e] == [e];
    } else {
      assert (events + [e])[1..] == events[1..] + [e];
      ReplayAppend(Step(c, events[0]), events[1..], e);
    }
  }

  /** After any renders and the unmount, none of this component's layers is left on the map. */
  lemma UnmountLeavesNoLayer(surface: set<LayerId>, events: seq<Event>)
    requires forall id :: id in surface ==> id.Foreign?
    ensures HeatIds(Replay(Mounted(surface), events + [Unmount]).surface) == {}
    ensures ForeignIds(Replay(Mounted(surface), events + [Unmount]).surface) == ForeignIds(surface)
  {
    MountedInv(surface);
    ReplayInv(Mounted(surface), events);
    ReplayAppend(Mounted(surface), events, Unmount);
    StepInv(Replay(Mounted(surface), events), Unmount);
  }

  /**
   Because `opacity` is a dependency, every animation tick rebuilds the layer:
   the old layer is removed and a new one with the new `minOpacity` is added.
   */
  lemma OpacityChangeRebuilds(c: Controller, d: Deps, opacity: int)
    requires Inv(c) && c.deps == Some(d) && d.MapReady() && c.pending.Some?
    requires opacity != d.opacity
    ensures var s := Step(c, Render(d.(opacity := opacity)));
      && s.pending.Some?
      && s.pending.value.id != c.pending.value.id
      && Heat(c.pending.value.id) !in s.surface
      && s.pending.value.options.minOpacity == MinOpacity(opacity)
  {
    StepInv(c, Render(d.(opacity := opacity)));
  }

  /**
   A new `points` array with the same contents still counts as a change: the
   old layer is removed and an identical-looking one is built in its place.
   */
  lemma FreshPointsArrayRebuilds(c: Controller, d: Deps, ref: nat)
    requires Inv(c) && c.deps == Some(d) && d.MapReady() && c.pending.Some?
    requires ref != d.pointsRef
    ensures var s := Step(c, Render(d.(pointsRef := ref)));
      && s.pending.Some?
      && s.pending.value.id != c.pending.value.id
      && Heat(c.pending.value.id) !in s.surface
      && s.pending.value.data == ToHeatTuples(d.props.points)
  {
    StepInv(c, Render(d.(pointsRef := ref)));
  }

  /**
   The same `points` array mutated in place is no change: the effect does not
   re-run and the layer on the map keeps the points it was built from.
   */
  lemma InPlaceMutationKeepsLayer(c: Controller, d: Deps, points: seq<Entry>)
    requires c.deps == Some(d)
    ensures Step(c, Render(d.(props := d.props.(points := points)))) == c
  {
  }
}

=== FILE: heat_points.dfy ===
/**
 The weighted geographic points the flood map feeds to its heat layer.
 */
module HeatPoints {

  /** The four lateral directions of a river's width points. */
  datatype Side = North | South | East | West

  /**
   The diagnostic `name` of a point. The source builds these as strings
   (`River Point 3`, `River Width N3-2`, `Hải Châu Area`); the model keeps the
   parts the string is made of instead of formatting it. It never affects
   rendering.
   */
  datatype Label =
    | District(name: string)
    | RiverCentre(step: nat)
    | RiverWidth(side: Side, step: nat, w: nat)
    | Area(around: Label)

  /** A point `{lat, lng, intensity, name}` of the flood heat data. */
  datatype HeatPoint = HeatPoint(lat: real, lng: real, intensity: real, name: Label)
}

=== FILE: heatmap_points.dfy ===
/**
 The point conversion of `HeatmapLayer`: keep the entries that are objects
 with `lat` and `lng` keys, then turn each into the heat plugin's
 `[lat, lng, weight]` tuple, boosting the intensity.
 */
module HeatmapPoints {
  import opened Js

  /**
   One element of the `points` prop as the filter sees it. `None` in a field
   is a missing key; a present key carries whatever number it holds, NaN and
   infinities included.
   */
  datatype Entry =
    | Null
    | Primitive
    | Obj(lat: Option<Num>, lng: Option<Num>, intensity: Option<Num>)

  /** `p && typeof p === 'object' && 'lat' in p && 'lng' in p`: key presence only. */
  predicate Kept(e: Entry) {
    e.Obj? && e.lat.Some? && e.lng.Some?
  }

  /** `points.filter(...)`. */
  function ValidPoints(ps: seq<Entry>): (vs: seq<Entry>)
    ensures |vs| <= |ps|
    ensures forall k :: 0 <= k < |vs| ==> Kept(vs[k])
  {
    if |ps| == 0 then []
    else (if Kept(ps[0]) then [ps[0]] else []) + ValidPoints(ps[1..])
  }

  /** The filter distributes over concatenation, so it keeps the survivors in their order. */
  lemma {:induction false} ValidPointsAppend(a: seq<Entry>, b: seq<Entry>)
    ensures ValidPoints(a + b) == ValidPoints(a) + ValidPoints(b)
    decreases |a|
  {
    if |a| > 0 {
      assert (a + b)[1..] == a[1..] + b;
      ValidPointsAppend(a[1..], b);
    } else {
      assert a + b == b;
    }
  }

  /** Exactly the kept entries of the input survive, each as often as it occurs. */
  lemma {:induction false} ValidPointsExact(ps: seq<Entry>, e: Entry)
    ensures multiset(ValidPoints(ps))[e] == if Kept(e) then multiset(ps)[e] else 0
    decreases |ps|
  {
    if |ps| > 0 {
      ValidPointsExact(ps[1..], e);
      assert ps == [ps[0]] + ps[1..];
    }
  }

  /** The filter invents nothing: every survivor is an entry of the input. */
  lemma ValidPointsFromInput(ps: seq<Entry>)
    ensures forall k :: 0 <= k < |ValidPoints(ps)| ==> ValidPoints(ps)[k] in ps
  {
    forall k | 0 <= k < |ValidPoints(ps)|
      ensures ValidPoints(ps)[k] in ps
    {
      var e := ValidPoints(ps)[k];
      ValidPointsExact(ps, e);
      assert e in multiset(ValidPoints(ps));
    }
  }

  /** A list of well-formed points passes the filter untouched. */
  lemma {:induction false} ValidPointsIdentity(ps: seq<Entry>)
    requires forall k :: 0 <= k < |ps| ==> Kept(ps[k])
    ensures ValidPoints(ps) == ps
    decreases |ps|
  {
    if |ps| > 0 {
      ValidPointsIdentity(ps[1..]);
    }
  }

  /** A `[lat, lng, weight]` tuple for the heat plugin. */
  datatype HeatTuple = HeatTuple(lat: Num, lng: Num, weight: Num)

  const Amplification: real := 1.8
  const DefaultWeight: real := 0.8

  /**
   `p.intensity ? Math.min(1.0, p.intensity * 1.8) : 0.8`. The weight never
   exceeds 1.0; a missing, zero or NaN intensity gives 0.8; a positive finite
   one gives a weight in `(0, 1]`.
   */
  function Weight(intensity: Option<Num>): (w: Num)
    ensures w.AtMost(1.0)
    ensures intensity.None? || !intensity.value.Truthy() ==> w == Finite(DefaultWeight)
    ensures intensity.Some? && intensity.value.Finite? && intensity.value.x > 0.0 ==>
      w.Finite? && 0.0 < w.x <= 1.0
  {
    if intensity.Some? && intensity.value.Truthy()
    then Min(1.0, Scale(intensity.value, Amplification))
    else Finite(DefaultWeight)
  }

  /**
   For any truthy intensity, negative ones included, the boost is linear
   while `1.8·x` stays at most 1 and saturates at 1.0 from there on.
   */
  lemma WeightSaturation(x: real)
    requires x != 0.0
    ensures x * Amplification <= 1.0 ==> Weight(Some(Finite(x))) == Finite(x * Amplification)
    ensures x * Amplification >= 1.0 ==> Weight(Some(Finite(x))) == Finite(1.0)
  {
  }

  /** The worked values: 0.9 saturates, 0.3 becomes 0.54, and 0 counts as missing. */
  lemma WeightExamples()
    ensures Weight(Some(Finite(0.9))) == Finite(1.0)
    ensures Weight(Some(Finite(0.3))) == Finite(0.54)
    ensures Weight(Some(Finite(0.0))) == Weight(None) == Finite(0.8)
  {
  }

  function ToTuple(e: Entry): HeatTuple
    requires Kept(e)
  {
    HeatTuple(e.lat.value, e.lng.value, Weight(e.intensity))
  }

  /** `validPoints.map(...)`: one tuple per kept entry. */
  function ToHeatTuples(ps: seq<Entry>): (ts: seq<HeatTuple>)
    ensures |ts| == |ValidPoints(ps)|
  {
    var vs := ValidPoints(ps);
    seq(|vs|, k requires 0 <= k < |vs| => ToTuple(vs[k]))
  }

  /**
   The conversion keeps length and order of the kept entries, copies their
   `lat` and `lng` unchanged (whatever number they hold) and bounds every
   weight by 1.0.
   */
  lemma HeatTuplesCopyCoordinates(ps: seq<Entry>)
    ensures forall k :: 0 <= k < |ToHeatTuples(ps)| ==>
      && Some(ToHeatTuples(ps)[k].lat) == ValidPoints(ps)[k].lat
      && Some(ToHeatTuples(ps)[k].lng) == ValidPoints(ps)[k].lng
      && ToHeatTuples(ps)[k].weight == Weight(ValidPoints(ps)[k].intensity)
      && ToHeatTuples(ps)[k].weight.AtMost(1.0)
  {
  }

  /** Converting a concatenation converts each part. */
  lemma HeatTuplesAppend(a: seq<Entry>, b: seq<Entry>)
    ensures ToHeatTuples(a + b) == ToHeatTuples(a) + ToHeatTuples(b)
  {
    ValidPointsAppend(a, b);
  }

  /**
   No finiteness check: an object whose `lat` holds NaN still reaches the
   plugin, with its NaN copied into the tuple.
   */
  lemma NaNLatitudeKept(lng: real)
    ensures ToHeatTuples([Obj(Some(NaN), Some(Finite(lng)), None)]) == [HeatTuple(NaN, Finite(lng), Finite(0.8))]
  {
    var e := Obj(Some(NaN), Some(Finite(lng)), None);
    assert ValidPoints([e]) == [e] by {
      assert [e][1..] == [];
    }
  }
}

=== FILE: js.dfy ===
/**
 The slice of JavaScript number semantics the dashboard's arithmetic can reach.

 Every value the components compute is a JavaScript double. The model keeps the
 finite values as exact reals (so no IEEE rounding) and keeps the three special
 values the code can actually produce: `NaN` (0/0), and the two infinities
 (x/0, and `Math.max()` of no arguments). Zero is always the positive zero.
 */
module Js {

  /** A JavaScript number: a finite value as an exact real, or a special value. */
  datatype Num = Finite(x: real) | NaN | PosInf | NegInf {

    /** JavaScript truthiness of a number: everything but 0 and NaN. */
    predicate Truthy() {
      match this
      case Finite(v) => v != 0.0
      case NaN => false
      case _ => true
    }

    /** The number compares `<= bound` (NaN compares false with everything). */
    predicate AtMost(bound: real) {
      match this
      case Finite(v) => v <= bound
      case NegInf => true
      case _ => false
    }
  }

  /** An optional value: `None` is an absent key or an `undefined` property. */
  datatype Option<+T> = None | Some(value: T)

  function MaxReal(a: real, b: real): real {
    if a >= b then a else b
  }

  function MinReal(a: real, b: real): real {
    if a <= b then a else b
  }

  /** `a / b` for finite operands; division by (positive) zero gives an infinity or NaN. */
  function Div(a: real, b: real): (r: Num)
    ensures b != 0.0 ==> r == Finite(a / b)
    ensures b == 0.0 ==> (r.NaN? <==> a == 0.0)
    ensures b == 0.0 ==> (r.PosInf? <==> a > 0.0)
    ensures b == 0.0 ==> (r.NegInf? <==> a < 0.0)
  {
    if b != 0.0 then Finite(a / b)
    else if a > 0.0 then PosInf
    else if a < 0.0 then NegInf
    else NaN
  }

  /** `n * k` for a positive finite factor `k`: infinities and NaN are preserved. */
  function Scale(n: Num, k: real): (r: Num)
    requires k > 0.0
    ensures r.Finite? <==> n.Finite?
    ensures r.NaN? <==> n.NaN?
    ensures n.Finite? ==> r.x == n.x * k
  {
    match n
    case Finite(v) => Finite(v * k)
    case _ => n
  }

  /** `k + n` for a finite `k`. */
  function Add(k: real, n: Num): (r: Num)
    ensures r.Finite? <==> n.Finite?
    ensures n.Finite? ==> r.x == k + n.x
  {
    match n
    case Finite(v) => Finite(k + v)
    case _ => n
  }

  /** `Math.min(k, n)` for a finite `k`: NaN is contagious, +Infinity loses. */
  function Min(k: real, n: Num): (r: Num)
    ensures r.AtMost(k) <==> !n.NaN?
    ensures n.Finite? || n.PosInf? ==> r.Finite?
    ensures n.Finite? ==> r.Finite? && r.x <= k && r.x <= n.x && (r.x == k || r.x == n.x)
    ensures n.PosInf? ==> r == Finite(k)
  {
    match n
    case Finite(v) => Finite(MinReal(k, v))
    case PosInf => Finite(k)
    case NegInf => NegInf
    case NaN => NaN
  }
}

=== FILE: opacity_pulse.dfy ===
/**
 The pulsing opacity of `HeatmapLayer`. While `animate` is on, an interval
 callback moves the opacity by 0.02 per tick, turning down once it has reached
 0.8 and up once it has reached 0.4. The direction flag lives in the effect's
 closure and starts out "increasing" every time the effect starts.

 Opacity is kept in integer hundredths (40 is 0.4), so the bounds are exact;
 the source's repeated floating-point additions are not modelled.
 */
module OpacityPulse {

  const Low: int := 40
  const High: int := 80
  const Step: int := 2

  /** `useState(0.4)`. */
  const InitialOpacity: int := 40

  /** The opacity state and the closure's `increasing` flag. */
  datatype Pulse = Pulse(opacity: int, increasing: bool)

  /**
   One run of the `setOpacity` updater: first `prev >= 0.8` turns the flag
   off, then `prev <= 0.4` turns it on, then the value moves one step in the
   flag's direction.
   */
  function Tick(s: Pulse): (t: Pulse)
    ensures s.opacity >= High ==> !t.increasing
    ensures s.opacity <= Low ==> t.increasing
    ensures Low < s.opacity < High ==> t.increasing == s.increasing
    ensures t.opacity == s.opacity + (if t.increasing then Step else -Step)
  {
    var afterHigh := if s.opacity >= High then false else s.increasing;
    var increasing := if s.opacity <= Low then true else afterHigh;
    Pulse(if increasing then s.opacity + Step else s.opacity - Step, increasing)
  }

  /** An opacity the oscillator can hold: an even hundredth in `[0.4, 0.8]`. */
  predicate InRange(opacity: int) {
    Low <= opacity <= High && opacity % 2 == 0
  }

  /** `n` ticks in a row. */
  function Run(s: Pulse, n: nat): Pulse {
    if n == 0 then s else Tick(Run(s, n - 1))
  }

  /** A tick keeps the opacity in range, in either direction, and moves it exactly one step. */
  lemma TickInRange(s: Pulse)
    requires InRange(s.opacity)
    ensures InRange(Tick(s).opacity)
    ensures Tick(s).opacity - s.opacity == Step || s.opacity - Tick(s).opacity == Step
  {
  }

  /** However many ticks run, the opacity never leaves `[0.4, 0.8]`. */
  lemma {:induction false} RunInRange(s: Pulse, n: nat)
    requires InRange(s.opacity)
    ensures InRange(Run(s, n).opacity)
    decreases n
  {
    if n > 0 {
      RunInRange(s, n - 1);
      TickInRange(Run(s, n - 1));
    }
  }

  /** From 0.4, rising: `k` ticks later the opacity is `0.4 + 0.02·k`, up to 0.8. */
  lemma {:induction false} Rising(k: nat)
    requires k <= 20
    ensures Run(Pulse(Low, true), k) == Pulse(Low + Step * k, true)
    decreases k
  {
    if k > 0 {
      Rising(k - 1);
    }
  }

  /** After reaching 0.8 on tick 20, it falls back one step per tick, to 0.4 on tick 40. */
  lemma {:induction false} Falling(k: nat)
    requires 1 <= k <= 20
    ensures Run(Pulse(Low, true), 20 + k) == Pulse(High - Step * k, false)
    decreases k
  {
    if k == 1 {
      Rising(20);
    } else {
      Falling(k - 1);
    }
  }

  /** One full period: 0.4 → 0.8 in 20 ticks, back to 0.4 in 20 more, then rising again. */
  lemma FullPeriod()
    ensures Run(Pulse(Low, true), 20).opacity == High
    ensures Run(Pulse(Low, true), 21).opacity == High - Step
    ensures Run(Pulse(Low, true), 40).opacity == Low
    ensures Run(Pulse(Low, true), 41) == Run(Pulse(Low, true), 1)
  {
    Rising(20);
    Falling(1);
    Falling(20);
    Rising(1);
  }

  /** `minOpacity` handed to the heat layer. */
  function MinOpacity(opacity: int): (m: real)
    ensures m * 100.0 == opacity as real
    ensures InRange(opacity) ==> 0.4 <= m <= 0.8
  {
    opacity as real / 100.0
  }

  /** What happens to the animation between two renders. */
  datatype AnimEvent = TimerFired | AnimateSet(on: bool)

  /** The animation as a whole: the opacity state, the `animate` prop, and the closure's flag. */
  datatype Animation = Animation(opacity: int, animate: bool, increasing: bool)

  /**
   Timer ticks only happen while an interval exists, i.e. while `animate` is
   on; switching `animate` on starts a new closure whose flag is `true`;
   switching it off clears the interval and leaves the opacity as it is.
   */
  function Advance(a: Animation, e: AnimEvent): (b: Animation)
    ensures !a.animate && e.TimerFired? ==> b == a
    ensures a.animate && e.TimerFired? ==>
      b.animate && Pulse(b.opacity, b.increasing) == Tick(Pulse(a.opacity, a.increasing))
    ensures e.AnimateSet? && e.on == a.animate ==> b == a
    ensures e.AnimateSet? && !e.on ==> b.opacity == a.opacity && !b.animate
    ensures e.AnimateSet? && e.on && !a.animate ==> b == Animation(a.opacity, true, true)
  {
    match e
    case TimerFired =>
      if a.animate then
        var t := Tick(Pulse(a.opacity, a.increasing));
        Animation(t.opacity, true, t.increasing)
      else a
    case AnimateSet(on) =>
      if on == a.animate then a
      else if on then Animation(a.opacity, true, true)
      else Animation(a.opacity, false, a.increasing)
  }

  function Play(a: Animation, events: seq<AnimEvent>): Animation
    decreases |events|
  {
    if |events| == 0 then a else Play(Advance(a, events[0]), events[1..])
  }

  /**
   Over any sequence of ticks and toggles, the opacity stays an even hundredth
   in `[0.4, 0.8]`; in particular nothing resets it when animation is switched off.
   */
  lemma {:induction false} PlayInRange(a: Animation, events: seq<AnimEvent>)
    requires InRange(a.opacity)
    ensures InRange(Play(a, events).opacity)
    decreases |events|
  {
    if |events| > 0 {
      if a.animate && events[0].TimerFired? {
        TickInRange(Pulse(a.opacity, a.increasing));
      }
      PlayInRange(Advance(a, events[0]), events[1..]);
    }
  }

  /** With animation off and never switched on, the opacity never changes. */
  lemma {:induction false} PlayStillWhenOff(a: Animation, events: seq<AnimEvent>)
    requires !a.animate
    requires forall k :: 0 <= k < |events| ==> events[k] != AnimateSet(true)
    ensures Play(a, events) == a
    decreases |events|
  {
    if |events| > 0 {
      PlayStillWhenOff(a, events[1..]);
    }
  }

  /** `k` firings of the interval timer with nothing else in between. */
  function Timers(k: nat): (events: seq<AnimEvent>)
    ensures |events| == k
    ensures forall j :: 0 <= j < k ==> events[j] == TimerFired
  {
    seq(k, _ => TimerFired)
  }

  /** Ticking first and then `n` times is ticking `n + 1` times. */
  lemma {:induction false} RunShift(s: Pulse, n: nat)
    ensures Run(Tick(s), n) == Run(s, n + 1)
    decreases n
  {
    if n > 0 {
      RunShift(s, n - 1);
    }
  }

  /**
   While animating, `k` timer events move the component's state exactly as
   `k` oscillator ticks do, so `Rising`, `Falling` and `FullPeriod` describe
   the component itself.
   */
  lemma {:induction false} PlayTimers(opacity: int, increasing: bool, k: nat)
    ensures var a := Play(Animation(opacity, true, increasing), Timers(k));
      var p := Run(Pulse(opacity, increasing), k);
      a == Animation(p.opacity, true, p.increasing)
    decreases k
  {
    if k > 0 {
      var t := Tick(Pulse(opacity, increasing));
      assert Timers(k)[1..] == Timers(k - 1);
      PlayTimers(t.opacity, t.increasing, k - 1);
      RunShift(Pulse(opacity, increasing), k - 1);
    }
  }

  /**
   From the component's initial state (opacity 0.4, animating, rising) the
   opacity reaches 0.8 after 20 timer events and is back at 0.4 after 40.
   */
  lemma InitialPulse()
    ensures Play(Animation(InitialOpacity, true, true), Timers(20)).opacity == High
    ensures Play(Animation(InitialOpacity, true, true), Timers(40)).opacity == Low
    ensures forall k: nat :: InRange(Play(Animation(InitialOpacity, true, true), Timers(k)).opacity)
  {
    PlayTimers(InitialOpacity, true, 20);
    PlayTimers(InitialOpacity, true, 40);
    FullPeriod();
    forall k: nat
      ensures InRange(Play(Animation(InitialOpacity, true, true), Timers(k)).opacity)
    {
      PlayInRange(Animation(InitialOpacity, true, true), Timers(k));
    }
  }
}

=== FILE: river_pattern.dfy ===
/**
 `createRiverPattern`: an elongated band of heat points along a straight river
 course. Each of `segments` steps emits a centre point on the line from start
 to end, then three rings of four lateral points (north, south, east, west)
 whose distance grows and whose intensity tapers with the width step.
 */
module RiverPattern {
  import opened HeatPoints

  /** The arguments of one `createRiverPattern` call. */
  datatype River = River(
    startLat: real, startLng: real,
    endLat: real, endLng: real,
    segments: int, intensity: real, width: real)

  // Defaults of the optional parameters (every call in the dashboard passes all three).
  const DefaultSegments: int := 10
  const DefaultIntensity: real := 0.9
  const DefaultWidth: real := 0.005

  /** Width steps `w = 1, 2, 3` per segment. */
  const WidthSteps: nat := 3

  /** One centre point plus four sides times three width steps. */
  const PointsPerSegment: nat := 13

  /** The interpolation ratio `i / segments` of step `i`. */
  function Ratio(i: nat, n: int): (t: real)
    requires i < n
    ensures 0.0 <= t < 1.0
    ensures t * (n as real) == i as real
  {
    (i as real) / (n as real)
  }

  /** The centre point of step `i`, linearly interpolated between start and end. */
  function Centre(r: River, i: nat): HeatPoint
    requires i < r.segments
  {
    var t := Ratio(i, r.segments);
    HeatPoint(
      r.startLat + (r.endLat - r.startLat) * t,
      r.startLng + (r.endLng - r.startLng) * t,
      r.intensity,
      RiverCentre(i))
  }

  /** Intensity of the lateral points at width step `w`: `intensity * (1 - w/4)`. */
  function Taper(intensity: real, w: nat): real {
    intensity * (1.0 - (w as real) / 4.0)
  }

  /** Distance of the lateral points at width step `w`: `(w/3) * width`. */
  function Offset(width: real, w: nat): real {
    ((w as real) / 3.0) * width
  }

  /** The lateral point on `side` of centre `c` at width step `w`. */
  function Lateral(r: River, c: HeatPoint, i: nat, w: nat, side: Side): HeatPoint {
    var f := Offset(r.width, w);
    var t := Taper(r.intensity, w);
    var tag := RiverWidth(side, i, w);
    match side
    case North => HeatPoint(c.lat + f, c.lng, t, tag)
    case South => HeatPoint(c.lat - f, c.lng, t, tag)
    case East => HeatPoint(c.lat, c.lng + f, t, tag)
    case West => HeatPoint(c.lat, c.lng - f, t, tag)
  }

  /** The four points pushed for one width step, in push order. */
  function Ring(r: River, c: HeatPoint, i: nat, w: nat): seq<HeatPoint> {
    [Lateral(r, c, i, w, North), Lateral(r, c, i, w, South),
     Lateral(r, c, i, w, East), Lateral(r, c, i, w, West)]
  }

  /** The rings of width steps `1..k`. */
  function Rings(r: River, c: HeatPoint, i: nat, k: nat): (s: seq<HeatPoint>)
    ensures |s| == 4 * k
  {
    if k == 0 then [] else Rings(r, c, i, k - 1) + Ring(r, c, i, k)
  }

  /** Everything step `i` pushes: its centre, then its three rings. */
  function Segment(r: River, i: nat): seq<HeatPoint>
    requires i < r.segments
  {
    var c := Centre(r, i);
    [c] + Rings(r, c, i, WidthSteps)
  }

  /** Steps `i, i+1, ..., segments-1`, in loop order. */
  function SegmentsFrom(r: River, i: nat): (s: seq<HeatPoint>)
    ensures |s| == PointsPerSegment * (if i < r.segments then r.segments - i else 0)
    decreases r.segments - i
  {
    if i >= r.segments then [] else Segment(r, i) + SegmentsFrom(r, i + 1)
  }

  /** All points one `createRiverPattern` call appends. */
  function Pattern(r: River): (s: seq<HeatPoint>)
    ensures r.segments <= 0 ==> s == []
    ensures r.segments > 0 ==> |s| == PointsPerSegment * r.segments
  {
    SegmentsFrom(r, 0)
  }

  /** A `createRiverPattern` call that omits the three optional parameters. */
  function RiverWithDefaults(startLat: real, startLng: real, endLat: real, endLng: real): River {
    River(startLat, startLng, endLat, endLng, DefaultSegments, DefaultIntensity, DefaultWidth)
  }

  /**
   With the defaults a corridor has 130 points, starting at the start point
   with intensity 0.9.
   */
  lemma DefaultPattern(startLat: real, startLng: real, endLat: real, endLng: real)
    ensures var p := Pattern(RiverWithDefaults(startLat, startLng, endLat, endLng));
      && |p| == 130
      && p[0].lat == startLat && p[0].lng == startLng && p[0].intensity == 0.9
  {
    FirstPointIsStart(RiverWithDefaults(startLat, startLng, endLat, endLng));
  }

  /**
   The loop of `createRiverPattern`, pushing onto the shared point list
   `heat` one point at a time; it appends exactly `Pattern(r)`.
   */
  method CreateRiverPattern(heat: seq<HeatPoint>, r: River) returns (out: seq<HeatPoint>)
    ensures out == heat + Pattern(r)
    ensures r.segments > 0 ==> |out| == |heat| + PointsPerSegment * r.segments
  {
    out := heat;
    var i: nat := 0;
    while i < r.segments
      invariant out + SegmentsFrom(r, i) == heat + Pattern(r)
      decreases r.segments - i
    {
      var c := Centre(r, i);
      var before := out;
      out := out + [c];
      var w: nat := 1;
      while w <= WidthSteps
        invariant 1 <= w <= WidthSteps + 1
        invariant out == before + [c] + Rings(r, c, i, w - 1)
      {
        out := out + [Lateral(r, c, i, w, North)];
        out := out + [Lateral(r, c, i, w, South)];
        out := out + [Lateral(r, c, i, w, East)];
        out := out + [Lateral(r, c, i, w, West)];
        w := w + 1;
      }
      i := i + 1;
    }
  }

  /** Point `j` of step `k` sits at position `13·k + j` of the pattern. */
  lemma {:induction false} SegmentsFromAt(r: River, i: nat, k: nat, j: nat)
    requires i <= k < r.segments && j < PointsPerSegment
    ensures PointsPerSegment * (k - i) + j < |SegmentsFrom(r, i)|
    ensures SegmentsFrom(r, i)[PointsPerSegment * (k - i) + j] == Segment(r, k)[j]
    decreases k - i
  {
    if k > i {
      SegmentsFromAt(r, i + 1, k, j);
      assert PointsPerSegment * (k - i) + j == PointsPerSegment + (PointsPerSegment * (k - (i + 1)) + j);
    }
  }

  lemma PatternAt(r: River, k: nat, j: nat)
    requires k < r.segments && j < PointsPerSegment
    ensures PointsPerSegment * k + j < |Pattern(r)|
    ensures Pattern(r)[PointsPerSegment * k + j] == Segment(r, k)[j]
  {
    SegmentsFromAt(r, 0, k, j);
  }

  /**
   `p` is a width point of centre `c` at step `w`: it moves exactly one
   coordinate of `c` by `±(w/3)·width` and carries `c`'s intensity times `1 - w/4`.
   */
  predicate IsLateral(p: HeatPoint, c: HeatPoint, w: nat, width: real) {
    var f := (w as real) * width / 3.0;
    && p.intensity == c.intensity * (4.0 - w as real) / 4.0
    && ((p.lat == c.lat && (p.lng == c.lng + f || p.lng == c.lng - f))
        || (p.lng == c.lng && (p.lat == c.lat + f || p.lat == c.lat - f)))
  }

  /**
   The shape of one step: the centre comes first, and each of the next twelve
   points is a width point of it, four per width step in the order 1, 2, 3.
   When the width is non-zero exactly one coordinate differs from the centre.
   */
  lemma SegmentShape(r: River, i: nat)
    requires i < r.segments
    ensures |Segment(r, i)| == PointsPerSegment
    ensures Segment(r, i)[0] == Centre(r, i)
    ensures forall j :: 1 <= j < PointsPerSegment ==>
      IsLateral(Segment(r, i)[j], Segment(r, i)[0], (j + 3) / 4, r.width)
    ensures r.width != 0.0 ==> forall j :: 1 <= j < PointsPerSegment ==>
      (Segment(r, i)[j].lat == Segment(r, i)[0].lat <==> Segment(r, i)[j].lng != Segment(r, i)[0].lng)
  {
    var c := Centre(r, i);
    var s := Segment(r, i);
    assert Rings(r, c, i, 1) == Ring(r, c, i, 1);
    assert Rings(r, c, i, 3) == Ring(r, c, i, 1) + Ring(r, c, i, 2) + Ring(r, c, i, 3);
    forall j | 1 <= j < PointsPerSegment
      ensures IsLateral(s[j], c, (j + 3) / 4, r.width)
      ensures r.width != 0.0 ==> (s[j].lat == c.lat <==> s[j].lng != c.lng)
    {
      var w := (j + 3) / 4;
      var d := j - 1 - 4 * (w - 1);
      assert s[j] == Ring(r, c, i, w)[d];
      RingLateral(r, c, i, w, d);
    }
  }

  /**
   The directions of one step: width step `w` pushes its four points
   north, south, east and west of the centre, in that order, each moved by
   `(w/3)·width` with intensity `intensity·(1 - w/4)` and tagged with its side.
   */
  lemma SegmentSides(r: River, i: nat, w: nat)
    requires i < r.segments && 1 <= w <= WidthSteps
    ensures |Segment(r, i)| == PointsPerSegment
    ensures var s := Segment(r, i);
            var c := s[0];
            var f := (w as real) / 3.0 * r.width;
            var t := r.intensity * (1.0 - (w as real) / 4.0);
            && s[4 * w - 3] == HeatPoint(c.lat + f, c.lng, t, RiverWidth(North, i, w))
            && s[4 * w - 2] == HeatPoint(c.lat - f, c.lng, t, RiverWidth(South, i, w))
            && s[4 * w - 1] == HeatPoint(c.lat, c.lng + f, t, RiverWidth(East, i, w))
            && s[4 * w] == HeatPoint(c.lat, c.lng - f, t, RiverWidth(West, i, w))
  {
    var c := Segment(r, i)[0];
    SegmentRing(r, i, w);
    assert Segment(r, i)[4 * w - 3] == Ring(r, c, i, w)[0];
    assert Segment(r, i)[4 * w - 3 + 1] == Ring(r, c, i, w)[1];
    assert Segment(r, i)[4 * w - 3 + 2] == Ring(r, c, i, w)[2];
    assert Segment(r, i)[4 * w - 3 + 3] == Ring(r, c, i, w)[3];
  }

  /** Width step `w`'s ring occupies positions `4w-3 .. 4w` of its step. */
  lemma SegmentRing(r: River, i: nat, w: nat)
    requires i < r.segments && 1 <= w <= WidthSteps
    ensures |Segment(r, i)| == PointsPerSegment
    ensures forall d :: 0 <= d < 4 ==> Segment(r, i)[4 * w - 3 + d] == Ring(r, Segment(r, i)[0], i, w)[d]
  {
    var c := Centre(r, i);
    var s := Segment(r, i);
    var r1, r2, r3 := Ring(r, c, i, 1), Ring(r, c, i, 2), Ring(r, c, i, 3);
    assert Rings(r, c, i, 1) == r1;
    assert Rings(r, c, i, 2) == r1 + r2;
    assert s == [c] + r1 + r2 + r3;
    forall d | 0 <= d < 4
      ensures s[4 * w - 3 + d] == Ring(r, c, i, w)[d]
    {
      if w == 1 {
        assert s[4 * w - 3 + d] == r1[d];
      } else if w == 2 {
        assert s[4 * w - 3 + d] == r2[d];
      } else {
        assert s[4 * w - 3 + d] == r3[d];
      }
    }
  }

  /** Each point of ring `w` is a width point of the centre at step `w`. */
  lemma RingLateral(r: River, c: HeatPoint, i: nat, w: nat, d: nat)
    requires 1 <= w <= WidthSteps && d < 4
    requires c.intensity == r.intensity
    ensures IsLateral(Ring(r, c, i, w)[d], c, w, r.width)
    ensures r.width != 0.0 ==> (Ring(r, c, i, w)[d].lat == c.lat <==> Ring(r, c, i, w)[d].lng != c.lng)
  {
    assert Offset(r.width, w) == (w as real) * r.width / 3.0;
    assert Taper(r.intensity, w) == r.intensity * (4.0 - w as real) / 4.0;
    if r.width != 0.0 {
      assert Offset(r.width, w) != 0.0;
    }
  }

  /** The first centre point is exactly the start of the river. */
  lemma FirstPointIsStart(r: River)
    requires r.segments > 0
    ensures Pattern(r)[0].lat == r.startLat && Pattern(r)[0].lng == r.startLng
    ensures Pattern(r)[0].intensity == r.intensity
  {
    PatternAt(r, 0, 0);
  }

  /** Consecutive centre points are one `(end - start) / segments` apart. */
  lemma CentresEvenlySpaced(r: River, i: nat)
    requires i + 1 < r.segments
    ensures Centre(r, i + 1).lat - Centre(r, i).lat == (r.endLat - r.startLat) / (r.segments as real)
    ensures Centre(r, i + 1).lng - Centre(r, i).lng == (r.endLng - r.startLng) / (r.segments as real)
  {
    var n := r.segments as real;
    assert Ratio(i + 1, r.segments) - Ratio(i, r.segments) == 1.0 / n;
  }

  /**
   The end of the river is never emitted as a centre point (the ratio stays
   below 1), unless the river starts where it ends.
   */
  lemma EndNeverEmitted(r: River, i: nat)
    requires i < r.segments
    requires r.startLat != r.endLat || r.startLng != r.endLng
    ensures Centre(r, i).lat != r.endLat || Centre(r, i).lng != r.endLng
  {
    var t := Ratio(i, r.segments);
    if r.startLat != r.endLat {
      assert Centre(r, i).lat - r.endLat == (r.startLat - r.endLat) * (1.0 - t);
      ProductNonZero(r.startLat - r.endLat, 1.0 - t);
    } else {
      assert Centre(r, i).lng - r.endLng == (r.startLng - r.endLng) * (1.0 - t);
      ProductNonZero(r.startLng - r.endLng, 1.0 - t);
    }
  }

  lemma ProductNonZero(a: real, b: real)
    requires a != 0.0 && b != 0.0
    ensures a * b != 0.0
  {
  }

  /**
   The width taper: for a positive intensity the lateral intensity is positive,
   strictly decreasing in the width step, and below the centre's.
   */
  lemma TaperDecreasing(intensity: real, w1: nat, w2: nat)
    requires intensity > 0.0
    requires 1 <= w1 < w2 <= WidthSteps
    ensures 0.0 < Taper(intensity, w2) < Taper(intensity, w1) < intensity
  {
    assert Taper(intensity, w2) == intensity * ((4 - w2) as real / 4.0);
    assert Taper(intensity, w1) == intensity * ((4 - w1) as real / 4.0);
  }
}

=== FILE: water_level_chart.dfy ===
/**
 `WaterLevelChart`: a time series of water levels (and optionally rainfall)
 with a status banner saying whether the warning or danger level was
 exceeded, and axis bounds with 20% headroom.
 */
module WaterLevelChart {
  import opened Js
  import WaterLevelIndicator

  /** One data point; the optional fields may be missing. */
  datatype Reading = Reading(
    waterLevel: real, rainfall: Option<real>,
    warningLevel: Option<real>, dangerLevel: Option<real>)

  /** `Math.max(...xs)` of a non-empty list: an upper bound that is one of the elements. */
  function MaxOf(xs: seq<real>): (m: real)
    requires |xs| > 0
    ensures forall k :: 0 <= k < |xs| ==> xs[k] <= m
    ensures exists k :: 0 <= k < |xs| && xs[k] == m
  {
    if |xs| == 1 then xs[0]
    else
      var rest := MaxOf(xs[1..]);
      if xs[0] >= rest then xs[0] else rest
  }

  function WaterLevels(data: seq<Reading>): (xs: seq<real>)
    ensures |xs| == |data|
    ensures forall k :: 0 <= k < |data| ==> xs[k] == data[k].waterLevel
  {
    seq(|data|, k requires 0 <= k < |data| => data[k].waterLevel)
  }

  const Headroom: real := 1.2

  /**
   `Math.max(...levels) * 1.2`: `-Infinity` for no data; otherwise 1.2 times
   the highest reading, which for non-negative readings is at least every
   reading.
   */
  function MaxYValue(data: seq<Reading>): (y: Num)
    ensures |data| == 0 ==> y == NegInf
    ensures |data| > 0 ==> y.Finite? && exists k :: 0 <= k < |data| && y.x == Headroom * data[k].waterLevel
    ensures |data| > 0 ==> forall k :: 0 <= k < |data| ==> Headroom * data[k].waterLevel <= y.x
    ensures (forall k :: 0 <= k < |data| ==> data[k].waterLevel >= 0.0) ==>
      forall k :: 0 <= k < |data| ==> y.Finite? && data[k].waterLevel <= y.x
  {
    if |data| == 0 then NegInf else Finite(MaxOf(WaterLevels(data)) * Headroom)
  }

  /** `value || null`: a missing value and a zero both count as no threshold. */
  function Threshold(v: Option<real>): (t: Option<real>)
    ensures t.Some? <==> v.Some? && v.value != 0.0
    ensures t.Some? ==> t == v
  {
    if v.Some? && v.value != 0.0 then v else None
  }

  /** `data[0]?.warningLevel || null`. */
  function WarningLevel(data: seq<Reading>): Option<real> {
    if |data| == 0 then None else Threshold(data[0].warningLevel)
  }

  /** `data[0]?.dangerLevel || null`. */
  function DangerLevel(data: seq<Reading>): Option<real> {
    if |data| == 0 then None else Threshold(data[0].dangerLevel)
  }

  /** `data.some(item => item.waterLevel > t)`. */
  function AnyAbove(data: seq<Reading>, t: real): (b: bool)
    ensures b <==> exists k :: 0 <= k < |data| && data[k].waterLevel > t
  {
    if |data| == 0 then false
    else data[0].waterLevel > t || AnyAbove(data[1..], t)
  }

  /** Some reading is strictly above the first reading's non-zero warning level. */
  function HasExceededWarning(data: seq<Reading>): (b: bool)
    ensures b <==> && |data| > 0 && data[0].warningLevel.Some? && data[0].warningLevel.value != 0.0
                   && exists k :: 0 <= k < |data| && data[k].waterLevel > data[0].warningLevel.value
  {
    WarningLevel(data).Some? && AnyAbove(data, WarningLevel(data).value)
  }

  /** Some reading is strictly above the first reading's non-zero danger level. */
  function HasExceededDanger(data: seq<Reading>): (b: bool)
    ensures b <==> && |data| > 0 && data[0].dangerLevel.Some? && data[0].dangerLevel.value != 0.0
                   && exists k :: 0 <= k < |data| && data[k].waterLevel > data[0].dangerLevel.value
  {
    DangerLevel(data).Some? && AnyAbove(data, DangerLevel(data).value)
  }

  datatype Status = DangerExceeded | WarningExceeded | NormalLevel

  /** The banner: shown only with a warning threshold; danger takes precedence over warning. */
  function Banner(data: seq<Reading>): (r: Option<Status>)
    ensures r.Some? <==> |data| > 0 && data[0].warningLevel.Some? && data[0].warningLevel.value != 0.0
    ensures r == Some(DangerExceeded) <==> r.Some? && HasExceededDanger(data)
    ensures r == Some(WarningExceeded) <==> r.Some? && !HasExceededDanger(data) && HasExceededWarning(data)
    ensures r == Some(NormalLevel) <==> r.Some? && !HasExceededDanger(data) && !HasExceededWarning(data)
  {
    if WarningLevel(data).None? then None
    else if HasExceededDanger(data) then Some(DangerExceeded)
    else if HasExceededWarning(data) then Some(WarningExceeded)
    else Some(NormalLevel)
  }

  function StatusText(s: Status): string {
    match s
    case DangerExceeded => "Danger level exceeded"
    case WarningExceeded => "Warning level exceeded"
    case NormalLevel => "Normal water level"
  }

  /**
   The banner in terms of the readings: the thresholds come from the first
   reading only; "exceeded" means some reading strictly above the threshold;
   and the banner is hidden exactly when the first reading has no (or a zero)
   warning level, even if the danger level was exceeded.
   */
  lemma BannerMeaning(data: seq<Reading>)
    ensures Banner(data).Some? <==>
      |data| > 0 && data[0].warningLevel.Some? && data[0].warningLevel.value != 0.0
    ensures Banner(data) == Some(DangerExceeded) <==>
      && Banner(data).Some?
      && data[0].dangerLevel.Some? && data[0].dangerLevel.value != 0.0
      && exists k :: 0 <= k < |data| && data[k].waterLevel > data[0].dangerLevel.value
    ensures Banner(data) == Some(WarningExceeded) <==>
      && Banner(data).Some? && Banner(data) != Some(DangerExceeded)
      && exists k :: 0 <= k < |data| && data[k].waterLevel > data[0].warningLevel.value
    ensures Banner(data) == Some(NormalLevel) <==>
      && Banner(data).Some?
      && !HasExceededDanger(data)
      && forall k :: 0 <= k < |data| ==> data[k].waterLevel <= data[0].warningLevel.value
  {
  }

  /** Only the first reading's thresholds matter; later readings' thresholds are ignored. */
  lemma ThresholdsFromFirstReading(data: seq<Reading>, k: nat, w: Option<real>, d: Option<real>)
    requires 0 < k < |data|
    ensures var data' := data[k := data[k].(warningLevel := w, dangerLevel := d)];
      WarningLevel(data') == WarningLevel(data) && DangerLevel(data') == DangerLevel(data)
      && HasExceededWarning(data') == HasExceededWarning(data)
      && HasExceededDanger(data') == HasExceededDanger(data)
      && Banner(data') == Banner(data)
  {
    var data' := data[k := data[k].(warningLevel := w, dangerLevel := d)];
    assert forall j :: 0 <= j < |data| ==> data'[j].waterLevel == data[j].waterLevel;
  }

  /**
   The chart is stricter than the map marker: a station sitting exactly at its
   warning level is "warning" on the map, but a series peaking there is
   "Normal water level" in the chart.
   */
  lemma ChartStricterThanIndicator(level: real, danger: real)
    requires 0.0 < level < danger
    ensures var data := [Reading(level, None, Some(level), Some(danger))];
      && WaterLevelIndicator.Classify(level, level, danger) == WaterLevelIndicator.Warning
      && Banner(data) == Some(NormalLevel)
  {
    var data := [Reading(level, None, Some(level), Some(danger))];
    assert !AnyAbove(data, level);
    assert !AnyAbove(data, danger);
  }

  /** The Han river series of the flood dashboard (12 two-hourly readings). */
  const HanRiverSeries: seq<Reading> := [
    Reading(2.8, Some(0.5), Some(3.0), Some(4.0)),
    Reading(2.9, Some(1.2), Some(3.0), Some(4.0)),
    Reading(3.1, Some(2.5), Some(3.0), Some(4.0)),
    Reading(3.2, Some(3.8), Some(3.0), Some(4.0)),
    Reading(3.3, Some(3.2), Some(3.0), Some(4.0)),
    Reading(3.4, Some(2.5), Some(3.0), Some(4.0)),
    Reading(3.5, Some(1.8), Some(3.0), Some(4.0)),
    Reading(3.6, Some(0.7), Some(3.0), Some(4.0)),
    Reading(3.7, Some(0.3), Some(3.0), Some(4.0)),
    Reading(3.6, Some(0.1), Some(3.0), Some(4.0)),
    Reading(3.5, Some(0.0), Some(3.0), Some(4.0)),
    Reading(3.4, Some(0.0), Some(3.0), Some(4.0))
  ]

  /** Peak 3.7 m is above the 3.0 m warning level but below the 4.0 m danger level. */
  lemma HanRiverShowsWarning()
    ensures Banner(HanRiverSeries) == Some(WarningExceeded)
    ensures StatusText(Banner(HanRiverSeries).value) == "Warning level exceeded"
  {
    assert HanRiverSeries[2].waterLevel > 3.0;
    assert forall k :: 0 <= k < |HanRiverSeries| ==> HanRiverSeries[k].waterLevel <= 3.7;
  }

  /** `item.rainfall || 0`. */
  function RainfallOrZero(r: Reading): real {
    if r.rainfall.Some? then r.rainfall.value else 0.0
  }

  function Rainfalls(data: seq<Reading>): (xs: seq<real>)
    ensures |xs| == |data|
    ensures forall k :: 0 <= k < |data| ==>
      && (data[k].rainfall.None? ==> xs[k] == 0.0)
      && (data[k].rainfall.Some? ==> xs[k] == data[k].rainfall.value)
  {
    seq(|data|, k requires 0 <= k < |data| => RainfallOrZero(data[k]))
  }

  /**
   The right axis exists only when the first reading has a rainfall value;
   its upper bound is 1.2 times the largest rainfall, a missing one counting
   as 0, so it is at least every rainfall when none is negative.
   */
  function RainfallAxisMax(data: seq<Reading>): (m: Option<real>)
    ensures m.Some? <==> |data| > 0 && data[0].rainfall.Some?
    ensures m.Some? ==> exists k :: 0 <= k < |data| && m.value == Headroom * RainfallOrZero(data[k])
    ensures m.Some? ==> forall k :: 0 <= k < |data| ==> Headroom * RainfallOrZero(data[k]) <= m.value
    ensures m.Some? && (forall k :: 0 <= k < |data| ==> RainfallOrZero(data[k]) >= 0.0) ==>
      forall k :: 0 <= k < |data| ==> RainfallOrZero(data[k]) <= m.value
  {
    if |data| > 0 && data[0].rainfall.Some? then Some(MaxOf(Rainfalls(data)) * Headroom) else None
  }
}

=== FILE: water_level_indicator.dfy ===
/**
 `WaterLevelIndicator`: one circle marker per gauge station, sized by how
 full the river is and coloured by the warning and danger thresholds, with a
 popup bar coloured by the same thresholds.
 */
module WaterLevelIndicator {
  import opened Js

  /**
   `Math.min(100, (current / max) * 100)`. It is never above 100; it is NaN
   only for `0 / 0`; a zero maximum with a positive level gives
   `min(100, +Infinity)`, that is 100; for a positive maximum and a
   non-negative level it is a finite percentage in `[0, 100]`.
   */
  function WaterLevelPercentage(current: real, max: real): (p: Num)
    ensures p.AtMost(100.0) <==> !(max == 0.0 && current == 0.0)
    ensures !p.PosInf?
    ensures max > 0.0 && current >= 0.0 ==> p.Finite? && 0.0 <= p.x <= 100.0
    ensures max > 0.0 && current <= max ==> p == Finite(current / max * 100.0)
    ensures max > 0.0 && current >= max ==> p == Finite(100.0)
    ensures max == 0.0 && current > 0.0 ==> p == Finite(100.0)
  {
    assert max > 0.0 && current >= max ==> current / max >= 1.0;
    Min(100.0, Scale(Div(current, max), 100.0))
  }

  /** The three states a station can be in. */
  datatype Level = Safe | Warning | Danger

  function Rank(l: Level): nat {
    match l
    case Safe => 0
    case Warning => 1
    case Danger => 2
  }

  /**
   The thresholds with danger first: reaching the danger level (equality
   counts) is danger; otherwise reaching the warning level is warning.
   */
  function Classify(current: real, warning: real, danger: real): (l: Level)
    ensures l == Danger <==> current >= danger
    ensures l == Warning <==> warning <= current < danger
    ensures l == Safe <==> current < warning && current < danger
  {
    if current >= danger then Danger
    else if current >= warning then Warning
    else Safe
  }

  const DangerColor: string := "#1e3a8a"
  const WarningColor: string := "#2563eb"
  const SafeColor: string := "#60a5fa"

  /** `getWaterLevelColor`. */
  function WaterLevelColor(current: real, warning: real, danger: real): (c: string)
    ensures c == ColorOf(Classify(current, warning, danger))
  {
    if current >= danger then DangerColor
    else if current >= warning then WarningColor
    else SafeColor
  }

  /** The class of the popup's fill bar, written out separately in the source. */
  function PopupBarClass(current: real, warning: real, danger: real): (c: string)
    ensures c == BarOf(Classify(current, warning, danger))
  {
    if current >= danger then "bg-blue-800"
    else if current >= warning then "bg-blue-600"
    else "bg-blue-400"
  }

  function ColorOf(l: Level): string {
    match l
    case Danger => DangerColor
    case Warning => WarningColor
    case Safe => SafeColor
  }

  function BarOf(l: Level): string {
    match l
    case Danger => "bg-blue-800"
    case Warning => "bg-blue-600"
    case Safe => "bg-blue-400"
  }

  /**
   Marker colour and popup bar agree: each marker colour goes with exactly
   one bar class, so both use the same thresholds with the same precedence,
   and the three levels have three distinct colours.
   */
  lemma ColorsFollowLevel(current: real, warning: real, danger: real)
    ensures WaterLevelColor(current, warning, danger) == DangerColor <==>
      PopupBarClass(current, warning, danger) == "bg-blue-800"
    ensures WaterLevelColor(current, warning, danger) == WarningColor <==>
      PopupBarClass(current, warning, danger) == "bg-blue-600"
    ensures WaterLevelColor(current, warning, danger) == SafeColor <==>
      PopupBarClass(current, warning, danger) == "bg-blue-400"
    ensures forall a: Level, b: Level :: ColorOf(a) == ColorOf(b) ==> a == b
  {
    assert DangerColor[1] != WarningColor[1] && DangerColor[1] != SafeColor[1];
    assert WarningColor[1] != SafeColor[1];
  }

  /** A higher water level never shows a lower state, whatever the two thresholds. */
  lemma ClassifyMonotone(c1: real, c2: real, warning: real, danger: real)
    requires c1 <= c2
    ensures Rank(Classify(c1, warning, danger)) <= Rank(Classify(c2, warning, danger))
  {
  }

  /**
   `8 + (percentage / 100) * 12`: 8 for an empty river, 20 for a full or
   overflowing one (a positive level over a zero maximum included), linear
   in between.
   */
  function MarkerRadius(current: real, max: real): (r: Num)
    ensures !(max == 0.0 && current == 0.0) ==> r.AtMost(20.0)
    ensures max > 0.0 && current >= 0.0 ==> r.Finite? && 8.0 <= r.x <= 20.0
    ensures max > 0.0 && current <= max ==> r == Finite(8.0 + 12.0 * (current / max))
    ensures max > 0.0 && current >= max ==> r == Finite(20.0)
    ensures max == 0.0 && current > 0.0 ==> r == Finite(20.0)
    ensures current == 0.0 && max != 0.0 ==> r == Finite(8.0)
  {
    Add(8.0, Scale(Scale(WaterLevelPercentage(current, max), 1.0 / 100.0), 12.0))
  }

  /** For a fixed positive maximum, a higher water level never gives a smaller marker. */
  lemma MarkerRadiusMonotone(c1: real, c2: real, max: real)
    requires max > 0.0 && c1 <= c2
    ensures MarkerRadius(c1, max).Finite? && MarkerRadius(c2, max).Finite?
    ensures MarkerRadius(c1, max).x <= MarkerRadius(c2, max).x
  {
    assert c1 / max <= c2 / max;
  }

  /** The Cẩm Lệ gauge of the map (3.8 m of 5.0 m, warning 2.5, danger 4.0). */
  lemma CamLeStation()
    ensures Classify(3.8, 2.5, 4.0) == Warning
    ensures MarkerRadius(3.8, 5.0) == Finite(17.12)
  {
  }
}
